=== FILE: README.md ===
# ldd2bh in Dafny

A model of `ldd2bh.py`. The script turns the attribute bags that
ldapdomaindump writes (users, computers, groups, domain trusts) into
BloodHound version 3 nodes.

The model covers these parts of the script:

- the `sid_to_str` decoder of binary security identifiers;
- the `user_access_control` flag table and the `check` bit test;
- the names, domains, high-value flags, SIDs and defaults that the four
  `parse_*` loops derive from each record;
- the process-wide `db` reference table that resolves group members;
- the count/version envelope of each output document;
- the pass selection of the main block.

Each part keeps the script's own quirks as the code has them.

Records are maps from attribute name to a list of values (`Records.Attrs`).
A value is a text, a number, or an `{encoding, encoded}` pair. Python
exceptions that escape a loop are modelled as `Failure(Error)`: KeyError,
IndexError, TypeError, and a rejected base64 text. The first failing record
ends the pass, as in the script, which has no handler there.

The script has two collaborators the model takes as parameters, in the
`Library` datatype:

- `to_epoch`, the timestamp parser;
- `base64.b64decode`, the base64 decoder.

The `db` dictionary becomes an explicit table value. The users pass returns
the table it leaves, and the groups pass takes it in.

Module layout:

| module | file | what it holds |
|---|---|---|
| `Wrappers` | wrappers.dfy | `Option`, `Result` |
| `Strings` | strings.dfy | Python's `find`/`in`, `split`, `join`, `replace`, `upper`, and the lemmas linking them |
| `Numerals` | numerals.dfy | `str(n)` and `hex(n)` |
| `SidCodec` | sid.dfy | `sid_to_str`, the SID layout, and an encoder used as its inverse |
| `AccountControl` | flags.dfy | the flag table, Python's `&` on unbounded integers, and `check` |
| `Records` | records.dfy | attribute bags, attribute access, timestamps, the envelope |
| `Naming` | naming.dfy | `hvt`, quote sanitizing, SID prefixes, `LocalAdmins`, and names derived from the DN |
| `RefTable` | reftable.dfy | the `db` table, both pre-passes, and member resolution |
| `Users`, `Computers`, `Groups`, `Domains` | users.dfy, computers.dfy, groups.dfy, domains.dfy | the four passes |
| `Pipeline` | pipeline.dfy | the main block: which passes run, and the table handed from users to groups |

## Quirks of the script that the model keeps

The model keeps these behaviours of the code:

- A user whose DN is `CN=x,OU=y,DC=...` gets the name `X,OU@DOMAIN`.
  - Reason: the leading relative name is cut at `,CN=`, not at `,`.
  - `Users.OuUserNaming` states this.
- A computer's name keeps the case of its CN.
- A computer's domain is the single label after the first `.`, not the
  whole suffix (`Computers.ComputerNaming`).
- Users and computers are high-value when any of 512/516/519/520 occurs as
  a substring of the primary group ID, so 5120 also counts.
- Groups are high-value only on an exact RID match
  (`Naming.SubstringAndExactDiffer`).
- Member resolution stops at the first member DN the table lacks, because
  one `try` surrounds the whole loop. Members after that DN are dropped even
  when they would resolve (`RefTable.LongestResolvablePrefix`).
- Table writes overwrite: the last write for a DN wins
  (`RefTable.RegisterIsLastWrite`).

## Model

| member | source | states |
|---|---|---|
| SidCodec.Slice | ldd2bh.py:497-503 | A Python byte slice: exact when in range, the tail from `lo` when only the end is past the input, empty when it starts past the end, never longer than asked |
| SidCodec.SidToStr | ldd2bh.py:488-517 | `sid_to_str` returns a string exactly when the input has at least two bytes (shorter input raises inside the `try` and yields None); the string starts with `S-` |
| SidCodec.DecodeEncode | ldd2bh.py:493-515 | Round trip: for every SID with one-byte revision and count, 48-bit authority and 32-bit sub-authorities, decoding its binary layout gives `S-rev-auth-sub1-...-subn`, the authority in hex from 2^32 up |
| SidCodec.DecodeLongEnough | ldd2bh.py:493-513 | Any byte string holding all the sub-authorities its count byte declares decodes to the SID whose authority is bytes 2..8 big-endian and whose i-th sub-authority is bytes 8+4i..12+4i little-endian |
| SidCodec.BigEndianRoundTrip | ldd2bh.py:497 | `int.from_bytes(.., 'big')` inverts the w-byte big-endian encoding of any n < 256^w |
| SidCodec.LittleEndianRoundTrip | ldd2bh.py:503 | `int.from_bytes(.., 'little')` inverts the w-byte little-endian encoding of any n < 256^w |
| SidCodec.SubAuthorityBytesAt | ldd2bh.py:503 | The i-th four-byte group of the sub-authority area holds the i-th sub-authority, little-endian |
| SidCodec.AuthorityOfEncode | ldd2bh.py:497 | Reading bytes 2..8 of the layout gives back the authority |
| SidCodec.SubAuthorityOfEncode | ldd2bh.py:503 | Reading the i-th group of the layout gives back the i-th sub-authority |
| SidCodec.SubAuthorityTextsOfEncode | ldd2bh.py:503 | The decimal texts read from the layout are the texts of the sub-authorities, in order |
| SidCodec.NoSubAuthoritiesLeavesTrailingDash | ldd2bh.py:503-513 | With a count of 0 the text ends in a dangling `-`: `S-1-5-` |
| SidCodec.TruncatedInputReadsZeros | ldd2bh.py:497-503 | Short slices read as 0: two bytes declaring three sub-authorities decode to `S-1-0-0-0-0` rather than failing |
| AccountControl.MaskIsSingleBit | ldd2bh.py:12-35 | Every mask in the flag table is a single power of two, at the flag's bit index |
| AccountControl.BitIndexInjective | ldd2bh.py:12-35 | No two flags of the table share a bit |
| AccountControl.AndSingleBit | ldd2bh.py:197 | Python's `&` with a single-bit mask yields the mask when that bit of the (possibly negative, two's-complement) value is set, else 0 |
| AccountControl.IsSetIffBit | ldd2bh.py:196-199 | `check(uac, mask)` for a flag of the table holds exactly when the flag's bit of uac is set, for every integer uac |
| AccountControl.NormalAccountIsEnabled | ldd2bh.py:21 | The ordinary account value 512 carries NORMAL_ACCOUNT and not ACCOUNTDISABLE |
| Numerals.DecWellFormed | ldd2bh.py:513 | `str(n)` is a non-empty digit string with no leading zero unless n is 0 |
| Numerals.DecRoundTrip | ldd2bh.py:513 | Reading the digits of `str(n)` back gives n |
| Numerals.DecInjective | ldd2bh.py:513 | Distinct numbers have distinct decimal texts |
| Numerals.DecHasNoSeparators | ldd2bh.py:217 | A decimal text contains none of `-`, `.`, `@`, so appending it keeps the SID's last component |
| Numerals.HexHasNoDash | ldd2bh.py:500 | A hex authority contains no `-` |
| Numerals.HexDigitsRoundTrip | ldd2bh.py:500 | The hex digits of n are non-empty lower-case hex digits whose value is n |
| Numerals.HexRoundTrip | ldd2bh.py:500 | `hex(n)` is `0x` followed by hex digits whose value is n |
| Strings.Find | ldd2bh.py:239 | Python `in`/`find`: the result is the first position where the pattern occurs, None when it occurs nowhere |
| Strings.Split | ldd2bh.py:222 | `split` yields at least one piece, and more than one exactly when the separator occurs |
| Strings.JoinSplit | ldd2bh.py:217 | `sep.join(s.split(sep)) == s` for every s |
| Strings.SplitJoin | ldd2bh.py:217 | Splitting a join of pieces free of the separator gives the pieces back |
| Strings.SplitConcat | ldd2bh.py:222 | Splitting `a + sep + b` is splitting a, then splitting b |
| Strings.ReplaceIsJoinSplit | ldd2bh.py:348 | `s.replace(p, r) == r.join(s.split(p))` |
| Strings.ReplaceOneChar | ldd2bh.py:230 | Replacing one character by another maps every occurrence position by position |
| Strings.Upper | ldd2bh.py:220 | `upper` keeps the length and upper-cases ASCII letters position by position |
| Strings.UpperIdempotent | ldd2bh.py:225 | Upper-casing twice is upper-casing once |
| Records.First | ldd2bh.py:216 | `attrs[key][0]`: KeyError when the key is absent, IndexError when its list is empty, else the first value |
| Records.FirstText | ldd2bh.py:230 | As First, and the value must be text for the string method applied to it |
| Records.FirstNumber | ldd2bh.py:244 | As First, and the value must be a number for `&` |
| Records.Timestamp | ldd2bh.py:257-270 | A missing timestamp attribute gives -1; a present one gives `to_epoch` of its first value |
| Records.MapAll | ldd2bh.py:214-316 | A pass succeeds exactly when every record derives; then item i is record i's node; otherwise the error is the first failing record's |
| Records.Envelope | ldd2bh.py:318 | The envelope counts exactly the items, with schema version 3 and the pass's type name |
| Records.Piece | ldd2bh.py:222 | Indexing the pieces of a split: IndexError exactly when the index is out of range |
| Naming.Sanitize | ldd2bh.py:230 | Each `"` and `'` becomes a backtick; every other character and the length are kept |
| Naming.SanitizeRemovesQuotes | ldd2bh.py:230 | A sanitized text contains no quote characters |
| Naming.SanitizeIdempotent | ldd2bh.py:230 | Sanitizing twice is sanitizing once |
| Naming.SanitizeWithoutQuotes | ldd2bh.py:230 | A text without quotes is left unchanged |
| Naming.SanitizeUpperCommute | ldd2bh.py:442 | Sanitizing before or after upper-casing gives the same text |
| Naming.SanitizeAvoidsAt | ldd2bh.py:442 | Sanitizing introduces no `@` |
| Naming.OptionalText | ldd2bh.py:297-300 | An absent attribute gives None; a present text gives its sanitized first value |
| Naming.LocalAdmins | ldd2bh.py:337-341 | Three entries, typed Group, Group, User |
| Naming.LocalAdminsShape | ldd2bh.py:324-341 | For a SID `p-rid`, LocalAdmins is exactly `p-519` Group, `p-512` Group, `p-500` User, in that order |
| Naming.DomainPrefixOf | ldd2bh.py:337 | Dropping the last `-` component of `p-rid` gives back p |
| Naming.PrimaryGroupSidShape | ldd2bh.py:217 | For a SID `p-rid` and a numeric primary group ID g, PrimaryGroupSid is `p-str(g)` |
| Naming.DomainPrefixOfSidText | ldd2bh.py:217 | The domain prefix of a decoded SID's text is the text of the same SID without its last sub-authority |
| Naming.AnyOccurs | ldd2bh.py:238-240 | The users/computers high-value loop is true exactly when some hvt entry occurs as a substring |
| Naming.AnyMember | ldd2bh.py:452-454 | The groups high-value loop is true exactly when some hvt entry is an element of the list |
| Naming.LastComponent | ldd2bh.py:453 | `split("-")[-1:]` is always a one-element list |
| Naming.LastComponentOf | ldd2bh.py:453 | For `p-rid`, the last component is exactly rid |
| Naming.HighValueByRidIff | ldd2bh.py:451-454 | A group SID `p-rid` is high-value exactly when rid is one of 512, 516, 519, 520 |
| Naming.HighValueByPrimaryGroupIff | ldd2bh.py:237-240 | A user or computer is high-value exactly when some hvt entry is a substring of `str(primaryGroupID)` |
| Naming.ExactImpliesSubstring | ldd2bh.py:7 | Every exact hvt RID also passes the substring test |
| Naming.HighValueExamples | ldd2bh.py:237-240 | Primary group 519 is high-value, 513 is not, and 5120 is, by substring |
| Naming.SubstringAndExactDiffer | ldd2bh.py:451-454 | A group whose RID is 5120 is not high-value, unlike a user with primary group 5120; RID 519 is |
| Naming.NotInHvt | ldd2bh.py:7 | No four-character text is in hvt |
| Naming.LeadingRdnValue | ldd2bh.py:222 | Reading the leading relative name fails (IndexError) exactly when the part before the first `,CN=` has no `=` |
| Naming.PieceAfter | ldd2bh.py:225-227 | `upper().split(sep)[1]` succeeds exactly when the upper-cased text contains sep |
| Naming.FirstRdnHasNoCn | ldd2bh.py:222 | `CN=x` with no `=` in x holds no `,CN=` |
| Naming.LeadingOfCanonical | ldd2bh.py:222 | For `CN=x,CN=rest`, the leading relative name is x |
| Naming.NoCnBeforeOu | ldd2bh.py:222 | In `CN=x,OU=rest`, no `,CN=` begins inside `CN=x,OU=` |
| Naming.LeadingKeepsOu | ldd2bh.py:222 | For `CN=x,OU=rest`, the leading relative name is `x,OU`, not x |
| Naming.DcDomainOfJoin | ldd2bh.py:222 | `'.'.join(dn.split(",DC=")[1:])` of `head,DC=d1,...,DC=dk` is `d1.....dk` |
| Naming.CanonicalUserName | ldd2bh.py:222-227 | `CN=x,CN=mid,DC=d1,...` gives the name `X@D1.....DK`, and that domain |
| Naming.UserNameKeepsOu | ldd2bh.py:222 | `CN=x,OU=y,DC=d1,...` gives the name `X,OU@D1.....DK` |
| Naming.StripOu | ldd2bh.py:348 | Removing `,OU` from `x,OU` gives x when x has no comma |
| Naming.FirstLabel | ldd2bh.py:353 | The first `.` piece of the upper-cased dotted domain is the upper-cased first label |
| Naming.DotSplitsName | ldd2bh.py:353 | The computer domain of `x.D1.....DK` is D1 alone |
| Naming.AtSplitsName | ldd2bh.py:227 | The domain of `X@D` (no other `@`) is D |
| Naming.ComputerNameFromOuDn | ldd2bh.py:348-353 | `CN=x,OU=y,DC=d1,...` gives the computer name `x.D1.....DK`, and domain D1 |
| Naming.GroupNameFromOuDn | ldd2bh.py:442-447 | `CN=x,OU=y,DC=d1,...` gives the group name `X@D1.....DK` (sanitized), and that domain |
| RefTable.UserKind | ldd2bh.py:232-235 | A DN is tagged Computer exactly when it contains `$`, else User |
| RefTable.Register | ldd2bh.py:233 | Writing entries keeps every earlier key and adds every written key |
| RefTable.RegisterIsLastWrite | ldd2bh.py:9 | After a sequence of writes, a key maps to its last write, or to its earlier value when never written; other keys stay absent |
| RefTable.LastWriteFrom | ldd2bh.py:430 | A key written at position i has a last write at some position at or after i |
| RefTable.UserEntry | ldd2bh.py:420-424 | The users pre-pass entry exists exactly when the record has a text DN and an objectSid; it is (sanitized DN, (objectSid, User or Computer by `$`)), never Group |
| RefTable.RegisterUsers | ldd2bh.py:417-424 | The users pre-pass succeeds exactly when every user's entry does; it keeps the earlier keys and every user's sanitized DN becomes a key |
| RefTable.UserPrePassTagsUsers | ldd2bh.py:417-424 | After the users pre-pass every user's sanitized DN carries the objectSid and `$`-kind of the last user record with that key |
| RefTable.GroupEntry | ldd2bh.py:430 | The group pre-pass writes (raw DN, (objectSid, Group)), and fails exactly when objectSid or a text DN is missing |
| RefTable.RegisterGroups | ldd2bh.py:428-430 | The group pre-pass succeeds exactly when every group record has an objectSid and a text DN; it keeps every key already in the table and adds every group's DN |
| RefTable.RegisterGroupsKeepsOthers | ldd2bh.py:415-430 | A key no group record writes keeps, through the group pre-pass, the value the users pre-pass gave it |
| RefTable.GroupPrePassTagsGroups | ldd2bh.py:428-430 | After the group pre-pass, every group's DN is tagged Group, carrying the objectSid of the last group with that DN |
| RefTable.ResolveMembers | ldd2bh.py:468-473 | Members are the longest prefix of the member list that resolves, each resolved through the table; the first DN after it does not resolve |
| RefTable.LongestResolvablePrefix | ldd2bh.py:468-473 | Any list meeting that description is the resolved member list (uniqueness) |
| RefTable.AllMembersResolve | ldd2bh.py:468-473 | No member is dropped exactly when every member DN is in the table |
| Users.FlagsOf | ldd2bh.py:243-278 | enabled is bit 1 clear; unconstrained delegation bit 19; passwordnotreqd bit 5; dontreqpreauth bit 22; pwdneverexpires bit 16 |
| Users.DeriveIdentity | ldd2bh.py:216-240 | A missing objectSid is a KeyError; a derived identity carries the objectSid, `prefix-str(primaryGroupID)`, the sanitized DN, and the substring high-value flag |
| Users.DeriveDetails | ldd2bh.py:243-307 | A missing userAccountControl is a KeyError; otherwise the flags are the bits of it, absent timestamps are -1, hasspn is the first servicePrincipalName or stands for False, displayname is the sanitized displayName falling back to sAMAccountName, admincount is the presence of adminCount |
| Users.DeriveUser | ldd2bh.py:214-316 | A user record derives exactly when both its identity and its details do |
| Users.DerivedUserProperties | ldd2bh.py:216-307 | The SIDs, PrimaryGroupSid, high-value flag, the five account-control booleans as bits of userAccountControl, admincount, and the defaults of absent attributes of a derived user node |
| Users.DerivedUserTexts | ldd2bh.py:219-300 | A derived user node's name and domain are those the naming rules give, its DN and displayname (falling back to sAMAccountName) are sanitized, each present timestamp is `to_epoch` of its first value, a present description is sanitized, hasspn is the first servicePrincipalName |
| Users.ParseUsers | ldd2bh.py:210-318 | The pass succeeds exactly when every record derives; item i is record i's node; the envelope counts them |
| Users.DerivedUserEntry | ldd2bh.py:230-235 | The users loop writes for a record the same entry as the groups pass's users pre-pass would |
| Users.UsersPassTableIsPrePassTable | ldd2bh.py:417-424 | After a successful users pass, the table equals the one the users pre-pass builds |
| Users.CanonicalUserNaming | ldd2bh.py:219-227 | Without a userPrincipalName, `CN=x,CN=mid,DC=d1,...` gives `X@D1.....DK` and that domain |
| Users.OuUserNaming | ldd2bh.py:219-227 | Without a userPrincipalName, `CN=x,OU=y,DC=d1,...` gives `X,OU@D1.....DK`, and the domain is still `D1.....DK` |
| Computers.UnconstrainedDelegation | ldd2bh.py:364-368 | Absent userAccountControl gives False; a present one gives True when bit 19 is set and leaves None otherwise |
| Computers.DeriveComputer | ldd2bh.py:364-373 | A computer record without userAccountControl, but with objectSid and primaryGroupID, always fails |
| Computers.ParseComputers | ldd2bh.py:327-405 | The pass succeeds exactly when every record derives; item i is record i's node; the envelope counts them |
| Computers.DerivedComputerProperties | ldd2bh.py:333-400 | A derived computer node's SIDs, PrimaryGroupSid, LocalAdmins of the SID's prefix, high-value flag, enabled from bit 1, delegation from bit 19, and the defaults of absent attributes |
| Computers.DerivedComputerTexts | ldd2bh.py:345-400 | A derived computer node's name and domain are those the naming rules give, its DN is sanitized, each present timestamp is `to_epoch` of its first value, a present description is sanitized, and servicePrincipalName and operatingSystem are the whole attribute lists when present |
| Computers.UnconstrainedNeverFalse | ldd2bh.py:364-373 | No output computer node has unconstraineddelegation False |
| Computers.ComputerLocalAdmins | ldd2bh.py:335-341 | For a computer SID `p-rid`, the LocalAdmins are `p-519`, `p-512`, `p-500`, and PrimaryGroupSid is `p-str(primaryGroupID)` |
| Computers.ComputerNaming | ldd2bh.py:345-353 | Without a userPrincipalName, `CN=x,OU=y,DC=d1,...` gives `x.D1.....DK` with x's case kept, and domain D1 |
| Groups.DeriveGroup | ldd2bh.py:435-473 | A derived group carries its objectSid; its name and domain are those the naming rules give; its DN is the sanitized first distinguishedName; its description is the sanitized first description, None when absent; it is high-value by its exact last SID component; its members are the longest resolvable prefix of `member` (none when absent) |
| Groups.ParseGroups | ldd2bh.py:414-483 | The pre-passes build the table; the pass succeeds exactly when they do and every record derives against the final table; the envelope counts the records |
| Groups.GroupDnResolves | ldd2bh.py:428-430 | The DN of any group in the input resolves to a Group carrying the objectSid of a group with that DN |
| Groups.UserKeyResolves | ldd2bh.py:415-430 | A user's sanitized DN that no group shares resolves, in the table the group loop reads, to User or Computer by its `$` and to the objectSid of a user record writing that key |
| Groups.MembersResolveInFull | ldd2bh.py:415-473 | A member list made of group DNs and users' sanitized DNs resolves in full: group DNs as Group, the others as User/Computer with a matching user's objectSid (the same holds when the users pass ran, by Pipeline.GroupsIndependentOfUsersPass) |
| Groups.GroupMembersResolveForward | ldd2bh.py:428-473 | A member list naming only DNs of groups in the input resolves in full, in order, whatever the record order, each entry a Group with such a group's objectSid |
| Groups.GroupHighValueByRid | ldd2bh.py:451-454 | A group with SID `p-rid` is high-value exactly when rid is in hvt |
| Groups.GroupNaming | ldd2bh.py:439-447 | Without a userPrincipalName, `CN=x,OU=y,DC=d1,...` gives the sanitized `X@D1.....DK` and that domain |
| Domains.RecordSid | ldd2bh.py:526-530 | Fails exactly when securityIdentifier is missing or not an encoding pair, or is base64 text the decoder rejects; the record inherits the SID exactly when its encoding does not mention base64 |
| Domains.DeriveDomain | ldd2bh.py:525-544 | objectid is the record's decoded SID, or the carried one; ObjectIdentifier is the decoded SID or None; name and domain are the upper-cased first name and cn; functionallevel is None when absent |
| Domains.DerivedDomainTexts | ldd2bh.py:534-544 | A derived domain node's DN is the upper-cased first distinguishedName, its description the sanitized first description (None when absent), and its functionallevel the first msds-behavior-version value when present |
| Domains.DeriveDomainCarryFree | ldd2bh.py:525-544 | Whether a record derives does not depend on the SID carried into it |
| Domains.DeriveDomains | ldd2bh.py:524-547 | Node i's objectid follows from record i's SID source and node i-1's objectid |
| Domains.DeriveDomainsPointwise | ldd2bh.py:524-547 | Node i is exactly what the per-record body makes of record i and the SID node i-1 carried out (the starting SID for node 0) |
| Domains.DeriveDomainsSucceeds | ldd2bh.py:524-547 | The loop succeeds exactly when every record derives on its own, whatever the starting SID |
| Domains.ParseDomains | ldd2bh.py:519-549 | The loop starts with no SID; the envelope counts the records; node i is the per-record body applied to record i and node i-1's objectid; the pass succeeds exactly when every record derives on its own |
| Domains.LoopCarriesLastDecoded | ldd2bh.py:521-533 | Any sequence obeying the loop's recurrence equals the reference definition at every position |
| Domains.ObjectIdIsLastDecoded | ldd2bh.py:521-533 | A domain node's objectid is the SID of the last base64 record at or before it, None if there is none |
| Domains.DomainObjectIdentifier | ldd2bh.py:526-530 | A domain node's ObjectIdentifier depends only on its own record |
| Domains.InheritedSid | ldd2bh.py:526-533 | A non-base64 record has ObjectIdentifier None and repeats the previous node's objectid (None for the first) |
| Domains.DomainSidFromEncoding | ldd2bh.py:526-533 | A base64 securityIdentifier holding the layout of a well-formed SID gives that SID's text as both ObjectIdentifier and objectid |
| Pipeline.Effective | ldd2bh.py:572-576 | Selecting no pass selects all four; otherwise the selection is kept |
| Pipeline.Run | ldd2bh.py:572-588 | A run writes exactly the documents of the passes it selects |
| Pipeline.GroupsIndependentOfUsersPass | ldd2bh.py:583-585 | The groups document and table are the same whether the users pass filled the table or the groups pass's own users pre-pass did |
| Pipeline.GroupsAloneMatchFullRun | ldd2bh.py:572-588 | Running only the groups pass gives the groups document of a full run whenever the full run succeeds |

## Left out

- File I/O, `ret_os_path`, JSON parsing of the inputs, and the
  `print` progress lines: the model starts from parsed records and ends
  at node values.
- The hand-built JSON text of `export`, including its quote and keyword
  substitutions and the `buf[:-2]` trim. Nodes are values here. As a
  result, the model does not show the malformed document that an empty
  input list produces.
- Partial output files on failure: the groups pass writes node by node, and
  a failing run leaves earlier documents on disk. The model only says that
  the run fails.
- `to_epoch` and `base64.b64decode` are parameters (`Library`). Their
  parsing of dates and of base64 is not modelled.
- The Python 2 branch of `sid_to_str`: the model is the Python 3 branch.
- `argparse`, and the check that both directories differ from `.`. Only the
  pass selection and the pass order are modelled.
- Properties the script sets to constants: `haslaps`, `sensitive`,
  `email`, `title`, `homedirectory`, `userpassword`, the empty ACE, session,
  SPN-target and SID-history lists, and the `Computer`/`Group`/`Domain`
  class shells.
- RefTable.GroupEntry: the script would accept any hashable DN as a key in
  the group pre-pass. The model requires a text DN. A non-text DN makes the
  script fail later, at the `replace` on line 456, so the run fails either
  way; only the kind of error differs.
- Naming.Sanitize: only the two quote characters are replaced, as in the
  script. Other characters that would break the hand-built JSON, such as
  backslashes, are not modelled, because `export` is left out.
- Records.Str: the `str()` of an encoded `{encoding, encoded}` value is
  written with the keys in that order and without escaping, so a text that
  needs escaping in Python's repr is not rendered as Python would.
- Strings.Upper: upper-casing is ASCII-only. Python's Unicode case mapping
  of non-ASCII letters is not modelled.
- Concrete example records, such as a whole record with a literal DN, are
  stated as general lemmas over `CN=x,OU=y,DC=...` shapes instead.

=== FILE: computers.dfy ===
/**
 * The computers pass: one BloodHound computer node per ldapdomaindump
 * computer record, with the synthesized LocalAdmins list.
 */
module Computers {
  import opened Wrappers
  import opened Strings
  import opened Records
  import opened Naming
  import opened AccountControl

  /** The properties of a computer node that depend on the record (`haslaps`
      is always false and the session lists always empty; left out). */
  datatype ComputerNode = ComputerNode(
    objectIdentifier: Value,
    primaryGroupSid: string,
    localAdmins: seq<Member>,
    name: string,
    domain: string,
    objectId: Value,
    distinguishedName: string,
    highValue: bool,
    unconstrainedDelegation: Option<bool>,   // None is the property's initial null
    enabled: bool,
    lastLogonTimestamp: int,
    pwdLastSet: int,
    servicePrincipalNames: Option<seq<Value>>,
    description: Option<string>,
    operatingSystem: Option<seq<Value>>)

  /** The `name` property: the upper-cased userPrincipalName, or the name read off the DN. */
  function ComputerName(a: Attrs): Result<string, Error>
  {
    if "userPrincipalName" in a then
      var upn :- First(a, "userPrincipalName");
      Success(Upper(Str(upn)))
    else
      var dn :- First(a, "distinguishedName");
      ComputerNameFromDn(Str(dn))
  }

  /** The `domain` property: the one label after the first `.`. */
  function ComputerDomain(a: Attrs, name: string): Result<string, Error>
  {
    if "userPrincipalName" in a then
      var upn :- First(a, "userPrincipalName");
      PieceAfter(Str(upn), ".")
    else
      PieceAfter(name, ".")
  }

  /** `unconstraineddelegation`: set to True when userAccountControl carries
      TRUSTED_FOR_DELEGATION, left at its initial None when it does not,
      and False only when userAccountControl is absent. */
  function UnconstrainedDelegation(a: Attrs): (r: Result<Option<bool>, Error>)
    ensures "userAccountControl" !in a ==> r == Success(Some(false))
    ensures "userAccountControl" in a && |a["userAccountControl"]| > 0 && a["userAccountControl"][0].Number? ==>
      r == Success(if Bit(a["userAccountControl"][0].n, 19) then Some(true) else None)
  {
    if "userAccountControl" in a then
      var uac :- FirstNumber(a, "userAccountControl");
      IsSetIffBit(uac, TrustedForDelegation);
      Success(if IsSet(uac, TrustedForDelegation) then Some(true) else None)
    else Success(Some(false))
  }

  /** The per-record body of the computers loop, in source order. */
  function DeriveComputer(a: Attrs, lib: Library): (r: Result<ComputerNode, Error>)
    ensures "userAccountControl" !in a && "objectSid" in a && |a["objectSid"]| > 0 && a["objectSid"][0].Text?
            && "primaryGroupID" in a && |a["primaryGroupID"]| > 0 ==>
              r.Failure?
  {
    var objectSid :- First(a, "objectSid");
    var sidText :- FirstText(a, "objectSid");
    var pgid :- First(a, "primaryGroupID");
    var localAdmins := LocalAdmins(sidText);
    var name :- ComputerName(a);
    var domain :- ComputerDomain(a, name);
    var dn :- FirstText(a, "distinguishedName");
    var unconstrained :- UnconstrainedDelegation(a);
    var uac :- FirstNumber(a, "userAccountControl");
    var lastLogonTimestamp :- Timestamp(a, "lastLogonTimestamp", lib);
    var pwdLastSet :- Timestamp(a, "pwdLastSet", lib);
    var description :- OptionalText(a, "description");
    Success(ComputerNode(
      objectIdentifier := objectSid,
      primaryGroupSid := PrimaryGroupSid(sidText, pgid),
      localAdmins := localAdmins,
      name := name,
      domain := domain,
      objectId := objectSid,
      distinguishedName := Sanitize(dn),
      highValue := HighValueByPrimaryGroup(pgid),
      unconstrainedDelegation := unconstrained,
      enabled := !IsSet(uac, AccountDisable),
      lastLogonTimestamp := lastLogonTimestamp,
      pwdLastSet := pwdLastSet,
      servicePrincipalNames := if "servicePrincipalName" in a then Some(a["servicePrincipalName"]) else None,
      description := description,
      operatingSystem := if "operatingSystem" in a then Some(a["operatingSystem"]) else None))
  }

  /** `parse_computers`: every record derived in order and the envelope counting them. */
  function ParseComputers(computers: seq<Attrs>, lib: Library): (r: Result<Collection<ComputerNode>, Error>)
    ensures r.Success? ==>
      && r.value.count == |computers| && |r.value.items| == |computers|
      && r.value.version == SchemaVersion && r.value.kind == "computers"
      && (forall i :: 0 <= i < |computers| ==> DeriveComputer(computers[i], lib) == Success(r.value.items[i]))
    ensures r.Success? <==> forall i :: 0 <= i < |computers| ==> DeriveComputer(computers[i], lib).Success?
  {
    var nodes :- MapAll(computers, a => DeriveComputer(a, lib));
    Success(Envelope("computers", nodes))
  }

  // ---------------------------------------------------------------------------
  // Lemmas

  /** A derived computer node: its SIDs, LocalAdmins, flags and defaults. */
  lemma DerivedComputerProperties(a: Attrs, lib: Library)
    requires DeriveComputer(a, lib).Success?
    ensures "objectSid" in a && |a["objectSid"]| > 0 && a["objectSid"][0].Text?
    ensures "primaryGroupID" in a && |a["primaryGroupID"]| > 0
    ensures "userAccountControl" in a && |a["userAccountControl"]| > 0 && a["userAccountControl"][0].Number?
    ensures
      var c := DeriveComputer(a, lib).value;
      var sid := a["objectSid"][0].s;
      var uac := a["userAccountControl"][0].n;
      && c.objectIdentifier == a["objectSid"][0] && c.objectId == a["objectSid"][0]
      && c.primaryGroupSid == PrimaryGroupSid(sid, a["primaryGroupID"][0])
      && c.localAdmins == LocalAdmins(sid)
      && (c.highValue <==> HighValueByPrimaryGroup(a["primaryGroupID"][0]))
      && (c.enabled <==> !Bit(uac, 1))
      && c.unconstrainedDelegation == (if Bit(uac, 19) then Some(true) else None)
      && ("lastLogonTimestamp" !in a ==> c.lastLogonTimestamp == -1)
      && ("pwdLastSet" !in a ==> c.pwdLastSet == -1)
      && ("description" !in a ==> c.description == None)
      && ("servicePrincipalName" !in a ==> c.servicePrincipalNames == None)
      && ("operatingSystem" !in a ==> c.operatingSystem == None)
  {
    var uac := a["userAccountControl"][0].n;
    IsSetIffBit(uac, AccountDisable);
  }

  /** The text, timestamp and list properties of a derived computer node:
      the name and domain the naming rules give, the sanitized DN, `to_epoch`
      of each present timestamp, the sanitized description, and the whole
      servicePrincipalName and operatingSystem lists when present. */
  lemma DerivedComputerTexts(a: Attrs, lib: Library)
    requires DeriveComputer(a, lib).Success?
    ensures
      var c := DeriveComputer(a, lib).value;
      && ComputerName(a) == Success(c.name) && ComputerDomain(a, c.name) == Success(c.domain)
      && "distinguishedName" in a && |a["distinguishedName"]| > 0 && a["distinguishedName"][0].Text?
      && c.distinguishedName == Sanitize(a["distinguishedName"][0].s)
    ensures
      var c := DeriveComputer(a, lib).value;
      && ("lastLogonTimestamp" in a ==>
            |a["lastLogonTimestamp"]| > 0 && a["lastLogonTimestamp"][0].Text?
            && c.lastLogonTimestamp == lib.toEpoch(a["lastLogonTimestamp"][0].s))
      && ("pwdLastSet" in a ==>
            |a["pwdLastSet"]| > 0 && a["pwdLastSet"][0].Text? && c.pwdLastSet == lib.toEpoch(a["pwdLastSet"][0].s))
      && ("description" in a ==>
            |a["description"]| > 0 && a["description"][0].Text?
            && c.description == Some(Sanitize(a["description"][0].s)))
      && ("servicePrincipalName" in a ==> c.servicePrincipalNames == Some(a["servicePrincipalName"]))
      && ("operatingSystem" in a ==> c.operatingSystem == Some(a["operatingSystem"]))
  {
  }

  /** The `False` branch of `unconstraineddelegation` never reaches an output
      node: without userAccountControl the `enabled` test raises KeyError. */
  lemma UnconstrainedNeverFalse(a: Attrs, lib: Library)
    requires DeriveComputer(a, lib).Success?
    ensures DeriveComputer(a, lib).value.unconstrainedDelegation != Some(false)
  {
    DerivedComputerProperties(a, lib);
  }

  /** A computer's LocalAdmins are Enterprise Admins (519), Domain Admins
      (512) and the Administrator account (500) of its own domain. */
  lemma ComputerLocalAdmins(a: Attrs, lib: Library, p: string, rid: string)
    requires DeriveComputer(a, lib).Success?
    requires "objectSid" in a && |a["objectSid"]| > 0 && a["objectSid"][0] == Text(p + "-" + rid)
    requires '-' !in rid
    ensures DeriveComputer(a, lib).value.localAdmins == [
      Member(Text(p + "-519"), Group),
      Member(Text(p + "-512"), Group),
      Member(Text(p + "-500"), User)]
    ensures DeriveComputer(a, lib).value.primaryGroupSid == p + "-" + Str(a["primaryGroupID"][0])
  {
    DerivedComputerProperties(a, lib);
    LocalAdminsShape(p, rid);
    DomainPrefixOf(p, rid);
  }

  /** Without a userPrincipalName, a computer DN `CN=x,OU=y,DC=d1,...,DC=dk`
      gives the name x.upper(d1.....dk), keeping x's case and dropping the
      `,OU`, and the domain upper(d1) alone. */
  lemma ComputerNaming(a: Attrs, x: string, y: string, ds: seq<string>)
    requires "userPrincipalName" !in a
    requires "distinguishedName" in a && |a["distinguishedName"]| > 0
    requires a["distinguishedName"][0] == Text(Join(",DC=", ["CN=" + x + ",OU=" + y] + ds))
    requires '=' !in x && ',' !in x && '.' !in x
    requires |ds| >= 1 && '.' !in ds[0]
    requires !Contains("CN=" + x + ",OU=" + y, ",DC=")
    requires forall i :: 0 <= i < |ds| ==> !Contains(ds[i], ",DC=")
    ensures ComputerName(a) == Success(x + "." + Upper(Join(".", ds)))
    ensures ComputerDomain(a, x + "." + Upper(Join(".", ds))) == Success(Upper(ds[0]))
  {
    ComputerNameFromOuDn(x, y, ds);
  }
}

=== FILE: domains.dfy ===
/**
 * The domains pass: one BloodHound domain node per trust record. The SID
 * variable lives across iterations, so a record whose securityIdentifier
 * is not base64-encoded reports the SID of the last one that was.
 */
module Domains {
  import opened Wrappers
  import opened Strings
  import opened Records
  import opened Naming
  import SidCodec

  /** The properties of a domain node that depend on the record. */
  datatype DomainNode = DomainNode(
    objectIdentifier: Option<string>,
    name: string,
    domain: string,
    objectId: Option<string>,
    distinguishedName: string,
    description: Option<string>,
    functionalLevel: Option<Value>)

  /** Where a record's SID comes from: its own base64 securityIdentifier
      (whose decoding `sid_to_str` may still turn into None), or the value
      the loop variable already holds. */
  datatype SidSource = Decoded(sid: Option<string>) | Inherited

  /** `"BASE64" in encoding.upper()`. */
  predicate IsBase64(encoding: string) {
    Contains(Upper(encoding), "BASE64")
  }

  /** The SID source of one record. Indexing a string or number with
      `['encoding']` raises TypeError; a rejected base64 text raises. */
  function RecordSid(a: Attrs, lib: Library): (r: Result<SidSource, Error>)
    ensures r.Success? <==>
      && "securityIdentifier" in a && |a["securityIdentifier"]| > 0 && a["securityIdentifier"][0].Encoded?
      && (IsBase64(a["securityIdentifier"][0].encoding) ==> lib.b64decode(a["securityIdentifier"][0].encoded).Some?)
    ensures r.Success? ==> (r.value.Inherited? <==> !IsBase64(a["securityIdentifier"][0].encoding))
    ensures r.Success? && r.value.Decoded? ==>
      r.value.sid == SidCodec.SidToStr(lib.b64decode(a["securityIdentifier"][0].encoded).value)
  {
    var v :- First(a, "securityIdentifier");
    if !v.Encoded? then Failure(TypeError("securityIdentifier"))
    else if IsBase64(v.encoding) then
      match lib.b64decode(v.encoded)
      case None => Failure(DecodeError)
      case Some(bytes) => Success(Decoded(SidCodec.SidToStr(bytes)))
    else Success(Inherited)
  }

  /** The SID after a record: its own when decoded, else the one carried in. */
  function NextSid(src: SidSource, sid: Option<string>): Option<string>
  {
    match src
    case Decoded(s) => s
    case Inherited => sid
  }

  /** The per-record body of the domains loop, given the SID carried in
      from earlier records; it yields the node and the SID carried out. */
  function DeriveDomain(a: Attrs, lib: Library, sid: Option<string>): (r: Result<(DomainNode, Option<string>), Error>)
    ensures r.Success? ==> RecordSid(a, lib).Success?
    ensures r.Success? ==> r.value.1 == r.value.0.objectId
    ensures r.Success? ==> r.value.0.objectId == NextSid(RecordSid(a, lib).value, sid)
    ensures r.Success? ==>
      r.value.0.objectIdentifier == (if RecordSid(a, lib).value.Decoded? then RecordSid(a, lib).value.sid else None)
    ensures r.Success? ==>
      && "name" in a && |a["name"]| > 0 && a["name"][0].Text? && r.value.0.name == Upper(a["name"][0].s)
      && "cn" in a && |a["cn"]| > 0 && a["cn"][0].Text? && r.value.0.domain == Upper(a["cn"][0].s)
    ensures r.Success? && "msds-behavior-version" !in a ==> r.value.0.functionalLevel == None
  {
    var src :- RecordSid(a, lib);
    var objectIdentifier := if src.Decoded? then src.sid else None;
    var sid' := NextSid(src, sid);
    var name :- FirstText(a, "name");
    var cn :- FirstText(a, "cn");
    var dn :- FirstText(a, "distinguishedName");
    var description :- OptionalText(a, "description");
    var functionalLevel :- if "msds-behavior-version" in a then
                             var v :- First(a, "msds-behavior-version"); Success(Some(v))
                           else Success(None);
    Success((DomainNode(
      objectIdentifier := objectIdentifier,
      name := Upper(name),
      domain := Upper(cn),
      objectId := sid',
      distinguishedName := Upper(dn),
      description := description,
      functionalLevel := functionalLevel), sid'))
  }

  /** The remaining properties of a derived domain node: the upper-cased DN,
      the sanitized description (None when absent) and the first
      msds-behavior-version value when that attribute is present. */
  lemma DerivedDomainTexts(a: Attrs, lib: Library, sid: Option<string>)
    requires DeriveDomain(a, lib, sid).Success?
    ensures
      var d := DeriveDomain(a, lib, sid).value.0;
      && "distinguishedName" in a && |a["distinguishedName"]| > 0 && a["distinguishedName"][0].Text?
      && d.distinguishedName == Upper(a["distinguishedName"][0].s)
      && OptionalText(a, "description") == Success(d.description)
      && ("description" !in a ==> d.description == None)
      && ("msds-behavior-version" in a ==>
            |a["msds-behavior-version"]| > 0 && d.functionalLevel == Some(a["msds-behavior-version"][0]))
  {
  }

  /** The domains loop from a given carried SID: each record sees the SID
      the previous one left. */
  function DeriveDomains(doms: seq<Attrs>, lib: Library, sid: Option<string>): (r: Result<seq<DomainNode>, Error>)
    ensures r.Success? ==> |r.value| == |doms|
    ensures r.Success? ==> forall i :: 0 <= i < |doms| ==>
      && RecordSid(doms[i], lib).Success?
      && r.value[i].objectId == NextSid(RecordSid(doms[i], lib).value, if i == 0 then sid else r.value[i - 1].objectId)
    decreases |doms|
  {
    if |doms| == 0 then Success([])
    else
      var (d, sid') :- DeriveDomain(doms[0], lib, sid);
      var rest :- DeriveDomains(doms[1..], lib, sid');
      var nodes := [d] + rest;
      assert nodes[0] == d;
      assert forall i :: 1 <= i < |doms| ==> doms[i] == doms[1..][i - 1] && nodes[i] == rest[i - 1];
      Success(nodes)
  }

  /** Whether a record derives does not depend on the SID carried into it:
      the carried SID is only copied into the node. */
  lemma DeriveDomainCarryFree(a: Attrs, lib: Library, sid: Option<string>, sid': Option<string>)
    ensures DeriveDomain(a, lib, sid).Success? <==> DeriveDomain(a, lib, sid').Success?
  {
  }

  /** Each node of the domains loop is what the per-record body makes of
      its record and the SID the previous node carried out. */
  lemma {:induction false} DeriveDomainsPointwise(doms: seq<Attrs>, lib: Library, sid: Option<string>, i: nat)
    requires DeriveDomains(doms, lib, sid).Success?
    requires i < |doms|
    ensures DeriveDomain(doms[i], lib, if i == 0 then sid else DeriveDomains(doms, lib, sid).value[i - 1].objectId)
            == Success((DeriveDomains(doms, lib, sid).value[i], DeriveDomains(doms, lib, sid).value[i].objectId))
    decreases |doms|
  {
    DeriveDomainsCons(doms, lib, sid);
    var first := DeriveDomain(doms[0], lib, sid);
    var (d, sid') := first.value;
    var nodes := DeriveDomains(doms, lib, sid).value;
    var rest := DeriveDomains(doms[1..], lib, sid').value;
    assert nodes == [d] + rest;
    if i == 0 {
      assert first == Success((nodes[0], nodes[0].objectId));
    } else {
      DeriveDomainsPointwise(doms[1..], lib, sid', i - 1);
      assert doms[1..][i - 1] == doms[i];
      assert nodes[i] == rest[i - 1];
      assert (if i == 1 then sid' else rest[i - 2].objectId) == nodes[i - 1].objectId;
    }
  }

  /** The domains loop fails exactly when some record fails on its own,
      whatever SID the loop starts with. */
  lemma {:induction false} DeriveDomainsSucceeds(doms: seq<Attrs>, lib: Library, sid: Option<string>)
    ensures DeriveDomains(doms, lib, sid).Success? <==> forall i :: 0 <= i < |doms| ==> DeriveDomain(doms[i], lib, None).Success?
    decreases |doms|
  {
    if |doms| > 0 {
      DeriveDomainCarryFree(doms[0], lib, sid, None);
      var d := DeriveDomain(doms[0], lib, sid);
      if d.Success? {
        DeriveDomainsSucceeds(doms[1..], lib, d.value.1);
        assert forall i :: 1 <= i < |doms| ==> doms[i] == doms[1..][i - 1];
      }
    }
  }

  /** `parse_domains`: the loop starts with no SID; the envelope counts the records. */
  function ParseDomains(doms: seq<Attrs>, lib: Library): (r: Result<Collection<DomainNode>, Error>)
    ensures r.Success? ==>
      && r.value.count == |doms| && |r.value.items| == |doms|
      && r.value.version == SchemaVersion && r.value.kind == "domains"
    ensures r.Success? ==> forall i :: 0 <= i < |doms| ==>
      && RecordSid(doms[i], lib).Success?
      && r.value.items[i].objectId == NextSid(RecordSid(doms[i], lib).value, if i == 0 then None else r.value.items[i - 1].objectId)
    ensures r.Success? ==> forall i :: 0 <= i < |doms| ==>
      DeriveDomain(doms[i], lib, if i == 0 then None else r.value.items[i - 1].objectId)
        == Success((r.value.items[i], r.value.items[i].objectId))
    ensures r.Success? <==> forall i :: 0 <= i < |doms| ==> DeriveDomain(doms[i], lib, None).Success?
  {
    DeriveDomainsSucceeds(doms, lib, None);
    var nodes :- DeriveDomains(doms, lib, None);
    assert forall i :: 0 <= i < |doms| ==>
      DeriveDomain(doms[i], lib, if i == 0 then None else nodes[i - 1].objectId) == Success((nodes[i], nodes[i].objectId)) by {
      forall i | 0 <= i < |doms| {
        DeriveDomainsPointwise(doms, lib, None, i);
      }
    }
    Success(Envelope("domains", nodes))
  }

  // ---------------------------------------------------------------------------
  // Lemmas

  /** Reference definition of the carried SID: the decoded SID of the last
      base64 record among `srcs`, None when none of them is base64. */
  function LastDecoded(srcs: seq<SidSource>): Option<string>
    decreases |srcs|
  {
    if |srcs| == 0 then None
    else match srcs[|srcs| - 1]
      case Decoded(s) => s
      case Inherited => LastDecoded(srcs[..|srcs| - 1])
  }

  /** The SID sources of records that all have one. */
  function Sources(doms: seq<Attrs>, lib: Library): (srcs: seq<SidSource>)
    requires forall j :: 0 <= j < |doms| ==> RecordSid(doms[j], lib).Success?
    ensures |srcs| == |doms| && forall j :: 0 <= j < |doms| ==> srcs[j] == RecordSid(doms[j], lib).value
  {
    seq(|doms|, j requires 0 <= j < |doms| => RecordSid(doms[j], lib).value)
  }

  /** A domain node's objectid is the SID of the last base64 record at or
      before it, and None when no record so far was base64. */
  lemma ObjectIdIsLastDecoded(doms: seq<Attrs>, lib: Library, i: nat)
    requires ParseDomains(doms, lib).Success?
    requires i < |doms|
    ensures forall j :: 0 <= j < |doms| ==> RecordSid(doms[j], lib).Success?
    ensures ParseDomains(doms, lib).value.items[i].objectId == LastDecoded(Sources(doms, lib)[..i + 1])
  {
    var items := ParseDomains(doms, lib).value.items;
    var ids := seq(|items|, j requires 0 <= j < |items| => items[j].objectId);
    var srcs := Sources(doms, lib);
    assert ids[0] == NextSid(srcs[0], None);
    assert forall j :: 0 < j < |srcs| ==> ids[j] == NextSid(srcs[j], ids[j - 1]);
    LoopCarriesLastDecoded(srcs, ids, i);
  }

  /** Any sequence of SIDs obeying the loop's recurrence is the reference one. */
  lemma {:induction false} LoopCarriesLastDecoded(srcs: seq<SidSource>, ids: seq<Option<string>>, i: nat)
    requires i < |srcs| && |ids| == |srcs|
    requires ids[0] == NextSid(srcs[0], None)
    requires forall j :: 0 < j < |srcs| ==> ids[j] == NextSid(srcs[j], ids[j - 1])
    ensures ids[i] == LastDecoded(srcs[..i + 1])
  {
    assert srcs[..i + 1][..i] == srcs[..i];
    if i > 0 {
      LoopCarriesLastDecoded(srcs, ids, i - 1);
    }
  }

  /** A record whose securityIdentifier is not base64 has no ObjectIdentifier
      and repeats the previous node's objectid (None for the first record). */
  lemma InheritedSid(doms: seq<Attrs>, lib: Library, i: nat)
    requires ParseDomains(doms, lib).Success?
    requires i < |doms|
    requires !IsBase64(doms[i]["securityIdentifier"][0].encoding)
    ensures var items := ParseDomains(doms, lib).value.items;
      && items[i].objectIdentifier == None
      && items[i].objectId == (if i == 0 then None else items[i - 1].objectId)
  {
    var items := ParseDomains(doms, lib).value.items;
    DomainObjectIdentifier(doms, lib, None, i);
  }

  /** The ObjectIdentifier of every node is its own record's decoded SID, or None. */
  lemma DomainObjectIdentifier(doms: seq<Attrs>, lib: Library, sid: Option<string>, i: nat)
    requires DeriveDomains(doms, lib, sid).Success?
    requires i < |doms|
    ensures var src := RecordSid(doms[i], lib).value;
      DeriveDomains(doms, lib, sid).value[i].objectIdentifier == (if src.Decoded? then src.sid else None)
    decreases |doms|
  {
    DeriveDomainsPointwise(doms, lib, sid, i);
  }

  /** The loop's first record, then the rest from the SID it leaves. */
  lemma DeriveDomainsCons(doms: seq<Attrs>, lib: Library, sid: Option<string>)
    requires DeriveDomains(doms, lib, sid).Success? && |doms| > 0
    ensures DeriveDomain(doms[0], lib, sid).Success?
    ensures var (d, sid') := DeriveDomain(doms[0], lib, sid).value;
      && DeriveDomains(doms[1..], lib, sid').Success?
      && DeriveDomains(doms, lib, sid).value == [d] + DeriveDomains(doms[1..], lib, sid').value
  {
  }

  /** A base64 securityIdentifier carrying the binary form of a well-formed
      SID gives that SID's text as both ObjectIdentifier and objectid. */
  lemma DomainSidFromEncoding(doms: seq<Attrs>, lib: Library, i: nat, s: SidCodec.Sid)
    requires ParseDomains(doms, lib).Success?
    requires i < |doms|
    requires SidCodec.WellFormed(s)
    requires IsBase64(doms[i]["securityIdentifier"][0].encoding)
    requires lib.b64decode(doms[i]["securityIdentifier"][0].encoded) == Some(SidCodec.Encode(s))
    ensures ParseDomains(doms, lib).value.items[i].objectIdentifier == Some(SidCodec.SidText(s))
    ensures ParseDomains(doms, lib).value.items[i].objectId == Some(SidCodec.SidText(s))
  {
    var items := ParseDomains(doms, lib).value.items;
    var text := Some(SidCodec.SidText(s));
    assert RecordSid(doms[i], lib) == Success(Decoded(text)) by {
      SidCodec.DecodeEncode(s);
    }
    assert items[i].objectIdentifier == text by {
      DomainObjectIdentifier(doms, lib, None, i);
    }
    assert items[i].objectId == NextSid(Decoded(text), if i == 0 then None else items[i - 1].objectId);
  }
}

=== FILE: flags.dfy ===
/**
 * The userAccountControl flag table and the `check(attr, mask)` test,
 * over Python's unbounded two's-complement integers.
 */
module AccountControl {

  /** The named bits of userAccountControl, one constructor per table entry. */
  datatype UacFlag =
    | Script
    | AccountDisable
    | HomedirRequired
    | Lockout
    | PasswdNotReqd
    | PasswdCantChange
    | EncryptedTextPwdAllowed
    | TempDuplicateAccount
    | NormalAccount
    | InterdomainTrustAccount
    | WorkstationTrustAccount
    | ServerTrustAccount
    | DontExpirePassword
    | MnsLogonAccount
    | SmartcardRequired
    | TrustedForDelegation
    | NotDelegated
    | UseDesKeyOnly
    | DontReqPreauth
    | PasswordExpired
    | TrustedToAuthForDelegation
    | PartialSecretsAccount

  /** The mask the flag table assigns to each name. */
  function Mask(f: UacFlag): nat
  {
    match f
    case Script => 0x0001
    case AccountDisable => 0x0002
    case HomedirRequired => 0x0008
    case Lockout => 0x0010
    case PasswdNotReqd => 0x0020
    case PasswdCantChange => 0x0040
    case EncryptedTextPwdAllowed => 0x0080
    case TempDuplicateAccount => 0x0100
    case NormalAccount => 0x0200
    case InterdomainTrustAccount => 0x0800
    case WorkstationTrustAccount => 0x1000
    case ServerTrustAccount => 0x2000
    case DontExpirePassword => 0x10000
    case MnsLogonAccount => 0x20000
    case SmartcardRequired => 0x40000
    case TrustedForDelegation => 0x80000
    case NotDelegated => 0x100000
    case UseDesKeyOnly => 0x200000
    case DontReqPreauth => 0x400000
    case PasswordExpired => 0x800000
    case TrustedToAuthForDelegation => 0x1000000
    case PartialSecretsAccount => 0x04000000
  }

  /** The bit position of each flag. */
  function BitIndex(f: UacFlag): nat
  {
    match f
    case Script => 0
    case AccountDisable => 1
    case HomedirRequired => 3
    case Lockout => 4
    case PasswdNotReqd => 5
    case PasswdCantChange => 6
    case EncryptedTextPwdAllowed => 7
    case TempDuplicateAccount => 8
    case NormalAccount => 9
    case InterdomainTrustAccount => 11
    case WorkstationTrustAccount => 12
    case ServerTrustAccount => 13
    case DontExpirePassword => 16
    case MnsLogonAccount => 17
    case SmartcardRequired => 18
    case TrustedForDelegation => 19
    case NotDelegated => 20
    case UseDesKeyOnly => 21
    case DontReqPreauth => 22
    case PasswordExpired => 23
    case TrustedToAuthForDelegation => 24
    case PartialSecretsAccount => 26
  }

  function Pow2(k: nat): (r: nat)
    ensures r >= 1
  {
    if k == 0 then 1 else 2 * Pow2(k - 1)
  }

  function Abs(x: int): nat
  {
    if x < 0 then -x else x
  }

  /** Python `a & b` on unbounded two's-complement integers: peel off the
      low bits (floor division by 2) until either side is all zeros (0) or
      all ones (-1). */
  function PyAnd(a: int, b: int): int
    decreases Abs(a) + Abs(b)
  {
    if a == 0 || b == 0 then 0
    else if a == -1 then b
    else if b == -1 then a
    else 2 * PyAnd(a / 2, b / 2) + (a % 2) * (b % 2)
  }

  /** `check(attr, mask)`: the masked value is positive. */
  predicate Check(attr: int, mask: int)
  {
    PyAnd(attr, mask) > 0
  }

  /** `check(uac, user_access_control[name])`. */
  predicate IsSet(uac: int, f: UacFlag)
  {
    Check(uac, Mask(f))
  }

  /** Bit `k` of the two's-complement representation of `a`. */
  predicate Bit(a: int, k: nat)
    decreases k
  {
    if k == 0 then a % 2 == 1 else Bit(a / 2, k - 1)
  }

  // ---------------------------------------------------------------------------
  // Lemmas

  /** Every entry of the flag table is a single bit, at the position `BitIndex` names. */
  lemma MaskIsSingleBit(f: UacFlag)
    ensures Mask(f) == Pow2(BitIndex(f))
  {
    PowersOfTwo();
    match f
    case Script =>
    case AccountDisable =>
    case HomedirRequired =>
    case Lockout =>
    case PasswdNotReqd =>
    case PasswdCantChange =>
    case EncryptedTextPwdAllowed =>
    case TempDuplicateAccount =>
    case NormalAccount =>
    case InterdomainTrustAccount =>
    case WorkstationTrustAccount =>
    case ServerTrustAccount =>
    case DontExpirePassword =>
    case MnsLogonAccount =>
    case SmartcardRequired =>
    case TrustedForDelegation =>
    case NotDelegated =>
    case UseDesKeyOnly =>
    case DontReqPreauth =>
    case PasswordExpired =>
    case TrustedToAuthForDelegation =>
    case PartialSecretsAccount =>
  }

  lemma PowersOfTwo()
    ensures Pow2(0) == 0x1 && Pow2(1) == 0x2 && Pow2(3) == 0x8 && Pow2(4) == 0x10
    ensures Pow2(5) == 0x20 && Pow2(6) == 0x40 && Pow2(7) == 0x80 && Pow2(8) == 0x100
    ensures Pow2(9) == 0x200 && Pow2(11) == 0x800 && Pow2(12) == 0x1000 && Pow2(13) == 0x2000
    ensures Pow2(16) == 0x10000 && Pow2(17) == 0x20000 && Pow2(18) == 0x40000
    ensures Pow2(19) == 0x80000 && Pow2(20) == 0x100000 && Pow2(21) == 0x200000
    ensures Pow2(22) == 0x400000 && Pow2(23) == 0x800000 && Pow2(24) == 0x1000000
    ensures Pow2(26) == 0x4000000
  {
    assert Pow2(2) == 4;
    assert Pow2(10) == 0x400;
    assert Pow2(14) == 0x4000;
    assert Pow2(15) == 0x8000;
    assert Pow2(25) == 0x2000000;
  }

  /** No two names in the flag table share a bit. */
  lemma BitIndexInjective(f: UacFlag, g: UacFlag)
    requires BitIndex(f) == BitIndex(g)
    ensures f == g
  {
  }

  /** Masking with a single bit keeps exactly that bit. */
  lemma {:induction false} AndSingleBit(a: int, k: nat)
    ensures PyAnd(a, Pow2(k)) == if Bit(a, k) then Pow2(k) else 0
    decreases k
  {
    if k == 0 {
      assert PyAnd(a / 2, 0) == 0;
    } else {
      var p := Pow2(k - 1);
      assert Pow2(k) / 2 == p && Pow2(k) % 2 == 0;
      AndSingleBit(a / 2, k - 1);
      if a == 0 {
        assert PyAnd(0, p) == 0;
      } else if a == -1 {
        assert PyAnd(-1, p) == p;
      }
    }
  }

  /** `check(attr, mask)` with a table mask tests exactly the flag's bit. */
  lemma IsSetIffBit(uac: int, f: UacFlag)
    ensures IsSet(uac, f) <==> Bit(uac, BitIndex(f))
  {
    MaskIsSingleBit(f);
    AndSingleBit(uac, BitIndex(f));
  }

  /** The plain NORMAL_ACCOUNT value 512 (0x200) is enabled: bit 1 is clear. */
  lemma NormalAccountIsEnabled()
    ensures !IsSet(512, AccountDisable)
    ensures IsSet(512, NormalAccount)
  {
    IsSetIffBit(512, AccountDisable);
    IsSetIffBit(512, NormalAccount);
    assert !Bit(256, 0);
    assert Bit(1, 0) && Bit(2, 1) && Bit(4, 2) && Bit(8, 3) && Bit(16, 4);
    assert Bit(32, 5) && Bit(64, 6) && Bit(128, 7) && Bit(256, 8);
  }
}

=== FILE: groups.dfy ===
/**
 * The groups pass: the optional users pre-pass, the group pre-pass that
 * enters every group into the reference table, and one BloodHound group
 * node per record with its members resolved through the table.
 */
module Groups {
  import opened Wrappers
  import opened Strings
  import opened Records
  import opened Naming
  import opened RefTable

  /** The properties of a group node that depend on the record and the table. */
  datatype GroupNode = GroupNode(
    objectIdentifier: Value,
    name: string,
    domain: string,
    objectId: Value,
    highValue: bool,
    distinguishedName: string,
    adminCount: bool,
    description: Option<string>,
    members: seq<Member>)

  /** The `name` property: the sanitized upper-cased userPrincipalName, or the name read off the DN. */
  function GroupName(a: Attrs): Result<string, Error>
  {
    if "userPrincipalName" in a then
      var upn :- First(a, "userPrincipalName");
      Success(Sanitize(Upper(Str(upn))))
    else
      var dn :- First(a, "distinguishedName");
      GroupNameFromDn(Str(dn))
  }

  /** The `domain` property: the text after the first `@`, sanitized on the DN path. */
  function GroupDomain(a: Attrs, name: string): Result<string, Error>
  {
    if "userPrincipalName" in a then
      var upn :- First(a, "userPrincipalName");
      PieceAfter(Str(upn), "@")
    else
      var d :- PieceAfter(name, "@");
      Success(Sanitize(d))
  }

  /** The per-record body of the group loop, in source order, reading the
      table as both pre-passes left it. */
  function DeriveGroup(a: Attrs, t: Table): (r: Result<GroupNode, Error>)
    ensures r.Success? ==> "objectSid" in a && |a["objectSid"]| > 0
    ensures r.Success? ==> r.value.objectIdentifier == a["objectSid"][0] && r.value.objectId == a["objectSid"][0]
    ensures r.Success? ==> (r.value.highValue <==> AnyMember(Hvt, LastComponent(Str(a["objectSid"][0]))))
    ensures r.Success? ==> r.value.adminCount == ("adminCount" in a)
    ensures r.Success? ==> '"' !in r.value.distinguishedName && '\'' !in r.value.distinguishedName
    ensures r.Success? ==> GroupName(a) == Success(r.value.name) && GroupDomain(a, r.value.name) == Success(r.value.domain)
    ensures r.Success? ==> FirstText(a, "distinguishedName").Success?
                           && r.value.distinguishedName == Sanitize(FirstText(a, "distinguishedName").value)
    ensures r.Success? ==> OptionalText(a, "description") == Success(r.value.description)
    ensures r.Success? && "description" !in a ==> r.value.description == None
    ensures r.Success? && "member" !in a ==> r.value.members == []
    ensures r.Success? && "member" in a ==>
      && |r.value.members| <= |a["member"]|
      && (forall p :: 0 <= p < |r.value.members| ==>
            Resolves(a["member"][p], t) && r.value.members[p] == Resolved(a["member"][p], t))
      && (|r.value.members| < |a["member"]| ==> !Resolves(a["member"][|r.value.members|], t))
  {
    var objectSid :- First(a, "objectSid");
    var name :- GroupName(a);
    var domain :- GroupDomain(a, name);
    var dn :- FirstText(a, "distinguishedName");
    var description :- OptionalText(a, "description");
    SanitizeRemovesQuotes(dn);
    Success(GroupNode(
      objectIdentifier := objectSid,
      name := name,
      domain := domain,
      objectId := objectSid,
      highValue := HighValueByRid(objectSid),
      distinguishedName := Sanitize(dn),
      adminCount := "adminCount" in a,
      description := description,
      members := GroupMembers(a, t)))
  }

  /** The table the group loop reads: the users pre-pass when the users pass
      did not run, then the group pre-pass. */
  function GroupTable(groups: seq<Attrs>, users: seq<Attrs>, noUsers: bool, t: Table): Result<Table, Error>
  {
    var withUsers :- if noUsers then RegisterUsers(users, t) else Success(t);
    RegisterGroups(groups, withUsers)
  }

  /** `parse_groups`: the pre-passes, then every record derived in order
      against the final table, and the envelope counting them. */
  function ParseGroups(groups: seq<Attrs>, users: seq<Attrs>, noUsers: bool, t: Table)
    : (r: Result<(Collection<GroupNode>, Table), Error>)
    ensures r.Success? ==>
      && r.value.0.count == |groups| && |r.value.0.items| == |groups|
      && r.value.0.version == SchemaVersion && r.value.0.kind == "groups"
      && GroupTable(groups, users, noUsers, t) == Success(r.value.1)
      && (forall i :: 0 <= i < |groups| ==> DeriveGroup(groups[i], r.value.1) == Success(r.value.0.items[i]))
    ensures r.Success? <==>
      && GroupTable(groups, users, noUsers, t).Success?
      && forall i :: 0 <= i < |groups| ==> DeriveGroup(groups[i], GroupTable(groups, users, noUsers, t).value).Success?
  {
    var table :- GroupTable(groups, users, noUsers, t);
    var nodes :- MapAll(groups, a => DeriveGroup(a, table));
    Success((Envelope("groups", nodes), table))
  }

  // ---------------------------------------------------------------------------
  // Lemmas

  /** Forward references resolve: a member list made only of DNs of groups in
      the same input is resolved in full, however the records are ordered,
      and every entry is a Group carrying the objectSid of a group with that DN. */
  lemma GroupMembersResolveForward(groups: seq<Attrs>, users: seq<Attrs>, noUsers: bool, t: Table, i: nat)
    requires ParseGroups(groups, users, noUsers, t).Success?
    requires i < |groups| && "member" in groups[i]
    requires forall p :: 0 <= p < |groups[i]["member"]| ==>
      exists k :: 0 <= k < |groups| && IsGroupDn(groups[k], groups[i]["member"][p])
    ensures var ms := ParseGroups(groups, users, noUsers, t).value.0.items[i].members;
      && |ms| == |groups[i]["member"]|
      && forall p :: 0 <= p < |ms| ==>
           ms[p].memberType == Group
           && exists k :: 0 <= k < |groups| && IsGroupDn(groups[k], groups[i]["member"][p])
                                            && ms[p].memberId == groups[k]["objectSid"][0]
  {
    var res := ParseGroups(groups, users, noUsers, t).value;
    var table := res.1;
    var withUsers := ReadTable(groups, users, noUsers, t);
    var ms := groups[i]["member"];
    forall p | 0 <= p < |ms|
      ensures Resolves(ms[p], table) && table[ms[p].s].1 == Group
      ensures exists k :: 0 <= k < |groups| && IsGroupDn(groups[k], ms[p]) && table[ms[p].s].0 == groups[k]["objectSid"][0]
    {
      GroupDnResolves(groups, withUsers, ms[p]);
    }
    MembersInFull(groups[i], table, res.0.items[i]);
  }

  /** The table the users pre-pass (or the users pass) left, which the group
      pre-pass of a successful groups pass extends into the final one. */
  lemma ReadTable(groups: seq<Attrs>, users: seq<Attrs>, noUsers: bool, t: Table) returns (withUsers: Table)
    requires ParseGroups(groups, users, noUsers, t).Success?
    ensures noUsers ==> RegisterUsers(users, t) == Success(withUsers)
    ensures !noUsers ==> withUsers == t
    ensures RegisterGroups(groups, withUsers) == Success(ParseGroups(groups, users, noUsers, t).value.1)
  {
    withUsers := if noUsers then RegisterUsers(users, t).value else t;
  }

  /** A group whose every member DN resolves lists them all, in order. */
  lemma MembersInFull(a: Attrs, table: Table, node: GroupNode)
    requires DeriveGroup(a, table) == Success(node)
    requires "member" in a && forall p :: 0 <= p < |a["member"]| ==> Resolves(a["member"][p], table)
    ensures |node.members| == |a["member"]|
    ensures forall p :: 0 <= p < |node.members| ==> node.members[p] == Resolved(a["member"][p], table)
  {
  }

  /** The DN of any group in the input resolves, after the group pre-pass,
      to a Group carrying the objectSid of a group with that DN. */
  lemma GroupDnResolves(groups: seq<Attrs>, t: Table, v: Value)
    requires RegisterGroups(groups, t).Success?
    requires exists k :: 0 <= k < |groups| && IsGroupDn(groups[k], v)
    ensures var table := RegisterGroups(groups, t).value;
      && Resolves(v, table) && table[v.s].1 == Group
      && exists k :: 0 <= k < |groups| && IsGroupDn(groups[k], v) && table[v.s].0 == groups[k]["objectSid"][0]
  {
    var table := RegisterGroups(groups, t).value;
    var k :| 0 <= k < |groups| && IsGroupDn(groups[k], v);
    GroupPrePassTagsGroups(groups, t, k);
    var j :| k <= j < |groups| && GroupEntry(groups[j]).value.0 == v.s
             && table[v.s] == GroupEntry(groups[j]).value.1;
    assert IsGroupDn(groups[j], v);
  }

  /** `v` is the DN of group record `g` (its first distinguishedName, a string). */
  predicate IsGroupDn(g: Attrs, v: Value) {
    && "distinguishedName" in g && |g["distinguishedName"]| > 0
    && g["distinguishedName"][0].Text? && v == g["distinguishedName"][0]
  }

  /** `v` is the key user record `u` writes: its sanitized DN, as a string. */
  predicate IsUserKey(u: Attrs, v: Value) {
    UserEntry(u).Success? && v == Text(UserEntry(u).value.0)
  }

  /** Some group record of the input has DN `v`. */
  predicate GroupDnIn(groups: seq<Attrs>, v: Value) {
    exists k :: 0 <= k < |groups| && IsGroupDn(groups[k], v)
  }

  /** Some user record of the input writes key `v`. */
  predicate UserKeyIn(users: seq<Attrs>, v: Value) {
    exists u :: 0 <= u < |users| && IsUserKey(users[u], v)
  }

  /** A user's sanitized DN that no group record shares resolves, in the
      table the group loop reads, to the objectSid and User/Computer kind of
      the last user record writing that key. */
  lemma UserKeyResolves(groups: seq<Attrs>, users: seq<Attrs>, t: Table, v: Value)
    requires GroupTable(groups, users, true, t).Success?
    requires UserKeyIn(users, v) && !GroupDnIn(groups, v)
    ensures var table := GroupTable(groups, users, true, t).value;
      && Resolves(v, table) && table[v.s].1 == UserKind(v.s) && table[v.s].1 != Group
      && exists j :: 0 <= j < |users| && IsUserKey(users[j], v) && table[v.s].0 == users[j]["objectSid"][0]
  {
    var withUsers := RegisterUsers(users, t).value;
    var u :| 0 <= u < |users| && IsUserKey(users[u], v);
    UserPrePassTagsUsers(users, t, u);
    var j :| u <= j < |users| && UserEntry(users[j]).value.0 == v.s
             && withUsers[v.s] == UserEntry(users[j]).value.1;
    assert IsUserKey(users[j], v);
    forall i | 0 <= i < |groups|
      ensures GroupEntry(groups[i]).value.0 != v.s
    {
      assert !IsGroupDn(groups[i], v);
    }
    RegisterGroupsKeepsOthers(groups, withUsers, v.s);
  }

  /** A member list whose every DN is a group's DN or a user's sanitized DN
      is resolved in full: group DNs as Group, the other user DNs as User or
      Computer with the objectSid of a user record writing that key. */
  lemma MembersResolveInFull(groups: seq<Attrs>, users: seq<Attrs>, t: Table, i: nat)
    requires ParseGroups(groups, users, true, t).Success?
    requires i < |groups| && "member" in groups[i]
    requires forall p :: 0 <= p < |groups[i]["member"]| ==>
      GroupDnIn(groups, groups[i]["member"][p]) || UserKeyIn(users, groups[i]["member"][p])
    ensures var ms := ParseGroups(groups, users, true, t).value.0.items[i].members;
      && |ms| == |groups[i]["member"]|
      && forall p :: 0 <= p < |ms| ==>
           if GroupDnIn(groups, groups[i]["member"][p]) then ms[p].memberType == Group
           else
             && ms[p].memberType == UserKind(groups[i]["member"][p].s) && ms[p].memberType != Group
             && exists j :: 0 <= j < |users| && IsUserKey(users[j], groups[i]["member"][p])
                                             && ms[p].memberId == users[j]["objectSid"][0]
  {
    var res := ParseGroups(groups, users, true, t).value;
    var table := res.1;
    var withUsers := ReadTable(groups, users, true, t);
    var ms := groups[i]["member"];
    forall p | 0 <= p < |ms|
      ensures Resolves(ms[p], table)
      ensures GroupDnIn(groups, ms[p]) ==> table[ms[p].s].1 == Group
      ensures !GroupDnIn(groups, ms[p]) ==>
        && table[ms[p].s].1 == UserKind(ms[p].s) && table[ms[p].s].1 != Group
        && exists j :: 0 <= j < |users| && IsUserKey(users[j], ms[p]) && table[ms[p].s].0 == users[j]["objectSid"][0]
    {
      if GroupDnIn(groups, ms[p]) {
        GroupDnResolves(groups, withUsers, ms[p]);
      } else {
        UserKeyResolves(groups, users, t, ms[p]);
      }
    }
    MembersInFull(groups[i], table, res.0.items[i]);
  }

  /** Group high-value status compares the last SID component exactly: a
      group whose RID is 519 is high-value and one whose RID is 513 is not. */
  lemma GroupHighValueByRid(a: Attrs, t: Table, p: string, rid: string)
    requires DeriveGroup(a, t).Success?
    requires a["objectSid"][0] == Text(p + "-" + rid) && '-' !in rid
    ensures DeriveGroup(a, t).value.highValue <==> rid in Hvt
  {
    HighValueByRidIff(p, rid);
  }

  /** Without a userPrincipalName, a group DN `CN=x,OU=y,DC=d1,...,DC=dk`
      gives the name upper(x)@upper(d1.....dk), sanitized, and that domain. */
  lemma GroupNaming(a: Attrs, x: string, y: string, ds: seq<string>)
    requires "userPrincipalName" !in a
    requires "distinguishedName" in a && |a["distinguishedName"]| > 0
    requires a["distinguishedName"][0] == Text(Join(",DC=", ["CN=" + x + ",OU=" + y] + ds))
    requires '=' !in x && ',' !in x && '@' !in x
    requires |ds| >= 1
    requires !Contains("CN=" + x + ",OU=" + y, ",DC=")
    requires forall i :: 0 <= i < |ds| ==> !Contains(ds[i], ",DC=") && '@' !in ds[i]
    ensures GroupName(a) == Success(Upper(Sanitize(x)) + "@" + Sanitize(Upper(Join(".", ds))))
    ensures GroupDomain(a, Upper(Sanitize(x)) + "@" + Sanitize(Upper(Join(".", ds))))
         == Success(Sanitize(Upper(Join(".", ds))))
  {
    GroupNameFromOuDn(x, y, ds);
    SanitizeIdempotent(Upper(Join(".", ds)));
  }
}

=== FILE: naming.dfy ===
/**
 * The text derivations shared by the node pipelines: quote sanitization,
 * the domain prefix of an object SID, names and domains read off a
 * distinguished name, and the two high-value tests.
 */
module Naming {
  import opened Wrappers
  import opened Strings
  import opened Numerals
  import opened Records
  import SidCodec

  // ---------------------------------------------------------------------------
  // Sanitization

  predicate IsQuote(c: char) {
    c == '"' || c == '\''
  }

  /** `.replace('"', '`').replace("'", "`")`: both quote characters become a backtick. */
  function Sanitize(s: string): (r: string)
    ensures |r| == |s|
    ensures forall i :: 0 <= i < |s| ==> r[i] == (if IsQuote(s[i]) then '`' else s[i])
  {
    var once := Replace(s, "\"", "`");
    ReplaceOneChar(s, '"', '`');
    ReplaceOneChar(once, '\'', '`');
    Replace(once, "'", "`")
  }

  /** A sanitized optional text property: `description` and the like. */
  function OptionalText(a: Attrs, key: string): (r: Result<Option<string>, Error>)
    ensures key !in a ==> r == Success(None)
    ensures key in a && |a[key]| > 0 && a[key][0].Text? ==> r == Success(Some(Sanitize(a[key][0].s)))
    ensures r.Success? <==> (key in a ==> |a[key]| > 0 && a[key][0].Text?)
  {
    if key in a then
      var s :- FirstText(a, key);
      Success(Some(Sanitize(s)))
    else Success(None)
  }

  /** No quote character survives sanitization. */
  lemma SanitizeRemovesQuotes(s: string)
    ensures '"' !in Sanitize(s) && '\'' !in Sanitize(s)
  {
    var r := Sanitize(s);
    forall i | 0 <= i < |r| ensures !IsQuote(r[i]) {
    }
  }

  /** Sanitizing twice is sanitizing once. */
  lemma SanitizeIdempotent(s: string)
    ensures Sanitize(Sanitize(s)) == Sanitize(s)
  {
  }

  /** Text without quotes is left as it is. */
  lemma SanitizeWithoutQuotes(s: string)
    requires '"' !in s && '\'' !in s
    ensures Sanitize(s) == s
  {
  }

  /** Upper-casing and sanitizing commute: neither touches what the other changes. */
  lemma SanitizeUpperCommute(s: string)
    ensures Upper(Sanitize(s)) == Sanitize(Upper(s))
  {
  }

  // ---------------------------------------------------------------------------
  // Object SIDs

  /** `'-'.join(sid.split("-")[:-1])`: the SID without its last component. */
  function DomainPrefix(sid: string): string
  {
    var ps := Split(sid, "-");
    Join("-", ps[..|ps| - 1])
  }

  /** `'-'.join(...) + "-" + str(primaryGroupID)`. */
  function PrimaryGroupSid(sid: string, pgid: Value): string
  {
    DomainPrefix(sid) + "-" + Str(pgid)
  }

  /** `build_la_dict(domain_sid, group_sid, member_type)`. */
  function LocalAdminEntry(domainSid: string, rid: string, kind: Kind): Member
  {
    Member(Text(domainSid + "-" + rid), kind)
  }

  /** The three LocalAdmins entries every computer receives, in the order appended. */
  function LocalAdmins(sid: string): (r: seq<Member>)
    ensures |r| == 3
    ensures r[0].memberType == Group && r[1].memberType == Group && r[2].memberType == User
  {
    var prefix := DomainPrefix(sid);
    [LocalAdminEntry(prefix, "519", Group),
     LocalAdminEntry(prefix, "512", Group),
     LocalAdminEntry(prefix, "500", User)]
  }

  /** Dropping the last component of `p-rid` gives back `p`. */
  lemma DomainPrefixOf(p: string, rid: string)
    requires '-' !in rid
    ensures DomainPrefix(p + "-" + rid) == p
  {
    SeparatorsAreFirstCharUnique();
    SplitConcat(p, "-", rid);
    ContainsCharIff(rid, '-');
    var ps := Split(p + "-" + rid, "-");
    assert ps == Split(p, "-") + [rid];
    assert ps[..|ps| - 1] == Split(p, "-");
    JoinSplit(p, "-");
  }

  /** The primary group SID shares the object SID's domain prefix and ends in
      the decimal primary group ID. */
  lemma PrimaryGroupSidShape(p: string, rid: string, pgid: nat)
    requires '-' !in rid
    ensures PrimaryGroupSid(p + "-" + rid, Number(pgid)) == p + "-" + Dec(pgid)
  {
    DomainPrefixOf(p, rid);
  }

  /** LocalAdmins is exactly Enterprise Admins, Domain Admins and the built-in
      Administrator of the computer's own domain. */
  lemma LocalAdminsShape(p: string, rid: string)
    requires '-' !in rid
    ensures LocalAdmins(p + "-" + rid) == [
      Member(Text(p + "-519"), Group),
      Member(Text(p + "-512"), Group),
      Member(Text(p + "-500"), User)]
  {
    DomainPrefixOf(p, rid);
    assert p + "-" + "519" == p + "-519";
    assert p + "-" + "512" == p + "-512";
    assert p + "-" + "500" == p + "-500";
  }

  /** For the canonical text of a SID with at least two sub-authorities, the
      domain prefix is the text of the same SID without its relative ID. */
  lemma DomainPrefixOfSidText(revision: nat, authority: nat, subs: seq<nat>, rid: nat)
    requires |subs| >= 1
    ensures DomainPrefix(SidCodec.SidText(SidCodec.Sid(revision, authority, subs + [rid])))
         == SidCodec.SidText(SidCodec.Sid(revision, authority, subs))
  {
    var texts := SidCodec.DecTexts(subs + [rid]);
    assert texts == SidCodec.DecTexts(subs) + [Dec(rid)];
    JoinAppend("-", SidCodec.DecTexts(subs), [Dec(rid)]);
    DecHasNoSeparators(rid);
    var head := "S-" + Dec(revision) + "-" + SidCodec.AuthorityText(authority) + "-" + Join("-", SidCodec.DecTexts(subs));
    assert SidCodec.SidText(SidCodec.Sid(revision, authority, subs + [rid])) == head + "-" + Dec(rid);
    DomainPrefixOf(head, Dec(rid));
  }

  // ---------------------------------------------------------------------------
  // High-value tests

  /** The `hvt` list: Domain Admins, Domain Controllers, Enterprise Admins, Group Policy Creator Owners. */
  const Hvt: seq<string> := ["512", "516", "519", "520"]

  /** `for h in hs: if h in s: flag = True`. */
  function AnyOccurs(hs: seq<string>, s: string): (r: bool)
    ensures r <==> exists k :: 0 <= k < |hs| && Contains(s, hs[k])
  {
    if |hs| == 0 then false
    else
      assert forall k :: 1 <= k < |hs| ==> hs[k] == hs[1..][k - 1];
      Contains(s, hs[0]) || AnyOccurs(hs[1..], s)
  }

  /** `for h in hs: if h in xs: flag = True`, where `in` is list membership. */
  function AnyMember(hs: seq<string>, xs: seq<string>): (r: bool)
    ensures r <==> exists k :: 0 <= k < |hs| && hs[k] in xs
  {
    if |hs| == 0 then false
    else
      assert forall k :: 1 <= k < |hs| ==> hs[k] == hs[1..][k - 1];
      hs[0] in xs || AnyMember(hs[1..], xs)
  }

  /** The user and computer test: some `hvt` entry occurs inside `str(primaryGroupID)`. */
  predicate HighValueByPrimaryGroup(pgid: Value)
  {
    AnyOccurs(Hvt, Str(pgid))
  }

  /** `str(sid).split("-")[-1:]`: the one-element list holding the last component. */
  function LastComponent(sid: string): (r: seq<string>)
    ensures |r| == 1
  {
    var ps := Split(sid, "-");
    ps[|ps| - 1..]
  }

  /** The group test: some `hvt` entry is a member of `str(sid).split("-")[-1:]`. */
  predicate HighValueByRid(sid: Value)
  {
    AnyMember(Hvt, LastComponent(Str(sid)))
  }

  /** The last component of `p-rid` is `rid`. */
  lemma LastComponentOf(p: string, rid: string)
    requires '-' !in rid
    ensures LastComponent(p + "-" + rid) == [rid]
  {
    SeparatorsAreFirstCharUnique();
    SplitConcat(p, "-", rid);
    ContainsCharIff(rid, '-');
    assert Split(p + "-" + rid, "-") == Split(p, "-") + [rid];
  }

  /** A group is high-value exactly when its relative ID equals an `hvt` entry. */
  lemma HighValueByRidIff(p: string, rid: string)
    requires '-' !in rid
    ensures HighValueByRid(Text(p + "-" + rid)) <==> rid in Hvt
  {
    LastComponentOf(p, rid);
  }

  /** A user or computer is high-value exactly when an `hvt` entry occurs in `str(primaryGroupID)`. */
  lemma HighValueByPrimaryGroupIff(pgid: Value)
    ensures HighValueByPrimaryGroup(pgid) <==> exists h :: h in Hvt && Contains(Str(pgid), h)
  {
  }

  /** The exact test is the narrower one: a relative ID the group test accepts
      is also accepted by the substring test. */
  lemma ExactImpliesSubstring(rid: string)
    requires rid in Hvt
    ensures AnyOccurs(Hvt, rid)
  {
    var k :| 0 <= k < |Hvt| && Hvt[k] == rid;
    assert OccursAt(rid, Hvt[k], 0);
  }

  /** 519 (Enterprise Admins) is high-value, 513 (Domain Users) is not, and
      5120 is accepted by the substring test although it names no `hvt` group. */
  lemma HighValueExamples()
    ensures HighValueByPrimaryGroup(Number(519))
    ensures !HighValueByPrimaryGroup(Number(513))
    ensures HighValueByPrimaryGroup(Number(5120))
  {
    assert Dec(519) == "519" by {
      assert Dec(51) == "51" by { assert Dec(5) == "5"; }
    }
    assert Dec(513) == "513" by {
      assert Dec(51) == "51" by { assert Dec(5) == "5"; }
    }
    assert Dec(5120) == "5120" by {
      assert Dec(512) == "512" by {
        assert Dec(51) == "51" by { assert Dec(5) == "5"; }
      }
    }
    assert OccursAt("519", "519", 0);
    assert OccursAt("5120", "512", 0);
    forall k | 0 <= k < |Hvt| ensures !Contains("513", Hvt[k]) {
      MissingCharNotContained("513", Hvt[k], 2);
    }
  }

  /** The group test on a SID ending in 5120 rejects what the substring test accepts. */
  lemma SubstringAndExactDiffer(p: string)
    ensures !HighValueByRid(Text(p + "-" + "5120"))
    ensures HighValueByRid(Text(p + "-" + "519"))
  {
    HighValueByRidIff(p, "5120");
    NotInHvt("5120");
    HighValueByRidIff(p, "519");
    assert Hvt[2] == "519";
  }

  /** A relative ID of four characters is none of the three-digit `hvt` entries. */
  lemma NotInHvt(rid: string)
    requires |rid| == 4
    ensures rid !in Hvt
  {
    forall k | 0 <= k < |Hvt| ensures Hvt[k] != rid {
      assert |Hvt[k]| == 3;
    }
  }

  // ---------------------------------------------------------------------------
  // Names from distinguished names

  /** `str(dn).split(",CN=")[0].split("=")[1]`: the value of the first RDN,
      read up to the first `,CN=` and the second `=`. */
  function LeadingRdnValue(dn: string): (r: Result<string, Error>)
    ensures r.Success? <==> Contains(Split(dn, ",CN=")[0], "=")
    ensures !r.Success? ==> r == Failure(IndexError("split"))
  {
    Piece(Split(Split(dn, ",CN=")[0], "="), 1)
  }

  /** `'.'.join(str(dn).split(",DC=")[1:])`. */
  function DcDomain(dn: string): string
  {
    Join(".", Split(dn, ",DC=")[1..])
  }

  /** A user name without userPrincipalName: upper(rdn) + "@" + upper(dc domain). */
  function UserNameFromDn(dn: string): Result<string, Error>
  {
    var x :- LeadingRdnValue(dn);
    Success(Upper(x) + "@" + Upper(DcDomain(dn)))
  }

  /** A computer name without userPrincipalName: rdn without ",OU", a dot, upper(dc domain). */
  function ComputerNameFromDn(dn: string): Result<string, Error>
  {
    var x :- LeadingRdnValue(dn);
    Success(Replace(x, ",OU", "") + "." + Upper(DcDomain(dn)))
  }

  /** A group name without userPrincipalName: both halves sanitized, the rdn without ",OU". */
  function GroupNameFromDn(dn: string): Result<string, Error>
  {
    var x :- LeadingRdnValue(dn);
    Success(Upper(Sanitize(Replace(x, ",OU", ""))) + "@" + Sanitize(Upper(DcDomain(dn))))
  }

  /** `str(name).upper().split(sep)[1]`. */
  function PieceAfter(name: string, sep: string): (r: Result<string, Error>)
    requires |sep| > 0
    ensures r.Success? <==> Contains(Upper(name), sep)
  {
    Piece(Split(Upper(name), sep), 1)
  }

  // ---------------------------------------------------------------------------
  // Lemmas about distinguished names

  /** A first RDN `CN=x` with no `=` in x holds no `,CN=`. */
  lemma FirstRdnHasNoCn(x: string)
    requires '=' !in x
    ensures !Contains("CN=" + x, ",CN=")
  {
    var a := "CN=" + x;
    forall j: nat | j + 4 <= |a| ensures !OccursAt(a, ",CN=", j) {
      assert a[j..j + 4][0] == a[j] && a[j..j + 4][3] == a[j + 3];
      if j < 3 {
        assert a[j] != ',';
      } else {
        assert a[j + 3] == x[j];
        assert x[j] in x;
      }
    }
  }

  /** The first RDN of `CN=x,CN=rest` is read as x. */
  lemma LeadingOfCanonical(x: string, rest: string)
    requires '=' !in x
    ensures LeadingRdnValue("CN=" + x + ",CN=" + rest) == Success(x)
  {
    SeparatorsAreFirstCharUnique();
    var a := "CN=" + x;
    FirstRdnHasNoCn(x);
    SplitConcat(a, ",CN=", rest);
    assert Split(a + ",CN=" + rest, ",CN=")[0] == a;
    assert a == "CN" + "=" + x;
    SplitConcat("CN", "=", x);
    MissingCharNotContained("CN", "=", 0);
    MissingCharNotContained(x, "=", 0);
    assert Split(a, "=") == ["CN", x];
  }

  /** The `,DC=` components of `head,DC=d1,...,DC=dk` are d1 ... dk. */
  lemma DcDomainOfJoin(head: string, ds: seq<string>)
    requires !Contains(head, ",DC=")
    requires forall i :: 0 <= i < |ds| ==> !Contains(ds[i], ",DC=")
    ensures DcDomain(Join(",DC=", [head] + ds)) == Join(".", ds)
  {
    var ps := [head] + ds;
    SeparatorsAreFirstCharUnique();
    forall i | 0 <= i < |ps| ensures !Contains(ps[i], ",DC=") {
      if i > 0 { assert ps[i] == ds[i - 1]; }
    }
    SplitJoin(ps, ",DC=");
    assert ps[1..] == ds;
  }

  /** `Join(sep, [h] + ds)` spelled out as `h + sep + Join(sep, ds)`. */
  lemma JoinCons(sep: string, h: string, ds: seq<string>)
    requires |ds| >= 1
    ensures Join(sep, [h] + ds) == h + sep + Join(sep, ds)
  {
    assert ([h] + ds)[1..] == ds;
  }

  /** A DN whose `,DC=` tail is `ds` and whose head is `a + sep + b`, regrouped. */
  lemma RegroupDn(a: string, sep: string, b: string, ds: seq<string>)
    requires |ds| >= 1
    ensures Join(",DC=", [a + sep + b] + ds) == a + sep + (b + ",DC=" + Join(",DC=", ds))
  {
    JoinCons(",DC=", a + sep + b, ds);
  }

  /** The user name assembled from the leading RDN value and the `,DC=` domain. */
  lemma UserNameOf(dn: string, x: string, d: string)
    requires LeadingRdnValue(dn) == Success(x) && DcDomain(dn) == d
    ensures UserNameFromDn(dn) == Success(Upper(x) + "@" + Upper(d))
  {
  }

  /** The computer name assembled from the leading RDN value and the `,DC=` domain. */
  lemma ComputerNameOf(dn: string, x: string, d: string)
    requires LeadingRdnValue(dn) == Success(x) && DcDomain(dn) == d
    ensures ComputerNameFromDn(dn) == Success(Replace(x, ",OU", "") + "." + Upper(d))
  {
  }

  /** The group name assembled from the leading RDN value and the `,DC=` domain. */
  lemma GroupNameOf(dn: string, x: string, d: string)
    requires LeadingRdnValue(dn) == Success(x) && DcDomain(dn) == d
    ensures GroupNameFromDn(dn) == Success(Upper(Sanitize(Replace(x, ",OU", ""))) + "@" + Sanitize(Upper(d)))
  {
  }

  /** A user without userPrincipalName whose DN is `CN=x,CN=...,DC=d1,...,DC=dk`
      is named upper(x)@upper(d1.....dk), and its domain is what follows the `@`. */
  lemma CanonicalUserName(x: string, mid: string, ds: seq<string>)
    requires '=' !in x && '@' !in x
    requires |ds| >= 1
    requires !Contains("CN=" + x + ",CN=" + mid, ",DC=")
    requires forall i :: 0 <= i < |ds| ==> !Contains(ds[i], ",DC=") && '@' !in ds[i]
    ensures UserNameFromDn(Join(",DC=", ["CN=" + x + ",CN=" + mid] + ds))
         == Success(Upper(x) + "@" + Upper(Join(".", ds)))
    ensures PieceAfter(Upper(x) + "@" + Upper(Join(".", ds)), "@") == Success(Upper(Join(".", ds)))
  {
    var head := "CN=" + x + ",CN=" + mid;
    var dn := Join(",DC=", [head] + ds);
    var rest := mid + ",DC=" + Join(",DC=", ds);
    RegroupDn("CN=" + x, ",CN=", mid, ds);
    LeadingOfCanonical(x, rest);
    DcDomainOfJoin(head, ds);
    var d := Join(".", ds);
    UserNameOf(dn, x, d);
    JoinAvoidsChar(".", ds, '@');
    AtSplitsName(x, d);
  }

  /** Upper-casing text that is already upper-cased changes nothing. */
  lemma UpperOfUpperParts(x: string, sep: string, d: string)
    requires forall i :: 0 <= i < |sep| ==> UpperChar(sep[i]) == sep[i]
    ensures Upper(Upper(x) + sep + Upper(d)) == Upper(x) + sep + Upper(d)
  {
    UpperConcat3(Upper(x), sep, Upper(d));
    UpperIdempotent(x);
    UpperIdempotent(d);
    assert Upper(sep) == sep;
  }

  /** Splitting `a + sep + b` on a one-character separator absent from both parts gives `[a, b]`. */
  lemma SplitTwo(a: string, c: char, b: string)
    requires c !in a && c !in b
    ensures Split(a + [c] + b, [c]) == [a, b]
  {
    assert FirstCharUnique([c]);
    SplitConcat(a, [c], b);
    ContainsCharIff(a, c);
    ContainsCharIff(b, c);
  }

  /** `upper(x + "@" + d).split("@")[1]` is `upper(d)` when neither part has an `@`. */
  lemma AtSplitsName(x: string, d: string)
    requires '@' !in x && '@' !in d
    ensures PieceAfter(Upper(x) + "@" + Upper(d), "@") == Success(Upper(d))
  {
    UpperOfUpperParts(x, "@", d);
    UpperKeepsChar(x, '@');
    UpperKeepsChar(d, '@');
    SplitTwo(Upper(x), '@', Upper(d));
  }

  /** No `,CN=` starts inside the prefix `CN=x,OU=` of a DN when x has no `=`. */
  lemma NoCnBeforeOu(x: string, rest: string)
    requires '=' !in x
    ensures forall j: nat :: j < |x| + 7 ==> !OccursAt("CN=" + x + ",OU=" + rest, ",CN=", j)
  {
    var s := "CN=" + x + ",OU=" + rest;
    forall j: nat | j < |x| + 7 ensures !OccursAt(s, ",CN=", j) {
      if j + 4 <= |s| {
        var w := s[j..j + 4];
        assert w[0] == s[j] && w[1] == s[j + 1] && w[3] == s[j + 3];
        if j < 3 {
          assert s[j] != ',';
        } else if j < 3 + |x| {
          if j < |x| {
            assert s[j + 3] == x[j];
            assert x[j] in x;
          } else {
            assert s[j + 3] != '=';
          }
        } else if j == 3 + |x| {
          assert s[j + 1] == 'O';
        } else {
          assert s[j] != ',';
        }
      }
    }
  }

  /** Only the `,CN=` separator ends the first RDN, so a DN `CN=x,OU=...` has
      the leading value `x,OU`: the user branch keeps the `,OU`. */
  lemma LeadingKeepsOu(x: string, rest: string)
    requires '=' !in x
    ensures LeadingRdnValue("CN=" + x + ",OU=" + rest) == Success(x + ",OU")
  {
    SeparatorsAreFirstCharUnique();
    var s := "CN=" + x + ",OU=" + rest;
    var m := |x| + 7;
    NoCnBeforeOu(x, rest);
    SplitHeadKeepsPrefix(s, ",CN=", m);
    var h := Split(s, ",CN=")[0];
    assert s[..m] == "CN=" + x + ",OU=";
    assert h == h[..m] + h[m..];
    assert h == "CN" + "=" + ((x + ",OU") + "=" + h[m..]);
    SplitConcat("CN", "=", (x + ",OU") + "=" + h[m..]);
    SplitConcat(x + ",OU", "=", h[m..]);
    MissingCharNotContained("CN", "=", 0);
    MissingCharNotContained(x + ",OU", "=", 0);
    assert Split(h, "=")[1] == x + ",OU";
  }

  /** The user name of `CN=x,OU=y,DC=d1,...` is `upper(x),OU@...`. */
  lemma UserNameKeepsOu(x: string, y: string, ds: seq<string>)
    requires '=' !in x
    requires |ds| >= 1
    requires !Contains("CN=" + x + ",OU=" + y, ",DC=")
    requires forall i :: 0 <= i < |ds| ==> !Contains(ds[i], ",DC=")
    ensures UserNameFromDn(Join(",DC=", ["CN=" + x + ",OU=" + y] + ds))
         == Success(Upper(x) + ",OU" + "@" + Upper(Join(".", ds)))
  {
    var head := "CN=" + x + ",OU=" + y;
    var dn := Join(",DC=", [head] + ds);
    RegroupDn("CN=" + x, ",OU=", y, ds);
    LeadingKeepsOu(x, y + ",DC=" + Join(",DC=", ds));
    DcDomainOfJoin(head, ds);
    UserNameOf(dn, x + ",OU", Join(".", ds));
    UpperKeepsOu(x);
  }

  lemma UpperKeepsOu(x: string)
    ensures Upper(x + ",OU") == Upper(x) + ",OU"
  {
    UpperConcat(x, ",OU");
    assert Upper(",OU") == ",OU" by {
      assert Upper("U") == "U";
      assert Upper("OU") == "OU";
    }
  }

  /** Removing `,OU` from `x,OU` gives x back when x has no comma. */
  lemma StripOu(x: string)
    requires ',' !in x
    ensures Replace(x + ",OU", ",OU", "") == x
  {
    SeparatorsAreFirstCharUnique();
    ReplaceIsJoinSplit(x + ",OU", ",OU", "");
    SplitConcat(x, ",OU", "");
    MissingCharNotContained(x, ",OU", 0);
    assert x + ",OU" == x + ",OU" + "";
  }

  /** The first piece of `upper(d1.d2...)` split on `.` is `upper(d1)`. */
  lemma FirstLabel(ds: seq<string>)
    requires |ds| >= 1 && '.' !in ds[0]
    ensures Split(Upper(Join(".", ds)), ".")[0] == Upper(ds[0])
  {
    SeparatorsAreFirstCharUnique();
    UpperKeepsChar(ds[0], '.');
    ContainsCharIff(Upper(ds[0]), '.');
    if |ds| > 1 {
      var rest := Join(".", ds[1..]);
      JoinCons(".", ds[0], ds[1..]);
      assert [ds[0]] + ds[1..] == ds;
      UpperConcat3(ds[0], ".", rest);
      assert Upper(".") == ".";
      SplitConcat(Upper(ds[0]), ".", Upper(rest));
    }
  }

  /** `upper(x + "." + upper(d1.d2...)).split(".")[1]` is `upper(d1)`: only the
      first domain label survives. */
  lemma DotSplitsName(x: string, ds: seq<string>)
    requires '.' !in x
    requires |ds| >= 1 && '.' !in ds[0]
    ensures PieceAfter(x + "." + Upper(Join(".", ds)), ".") == Success(Upper(ds[0]))
  {
    SeparatorsAreFirstCharUnique();
    var j := Join(".", ds);
    UpperConcat3(x, ".", Upper(j));
    UpperIdempotent(j);
    assert Upper(".") == ".";
    SplitConcat(Upper(x), ".", Upper(j));
    UpperKeepsChar(x, '.');
    ContainsCharIff(Upper(x), '.');
    assert Split(Upper(x), ".") == [Upper(x)];
    FirstLabel(ds);
  }

  /** A computer without userPrincipalName whose DN is `CN=x,OU=y,DC=d1,...,DC=dk`
      is named x.upper(d1.....dk): the `,OU` is stripped, x keeps its case,
      and its domain is the single label upper(d1). */
  lemma ComputerNameFromOuDn(x: string, y: string, ds: seq<string>)
    requires '=' !in x && ',' !in x && '.' !in x
    requires |ds| >= 1 && '.' !in ds[0]
    requires !Contains("CN=" + x + ",OU=" + y, ",DC=")
    requires forall i :: 0 <= i < |ds| ==> !Contains(ds[i], ",DC=")
    ensures ComputerNameFromDn(Join(",DC=", ["CN=" + x + ",OU=" + y] + ds))
         == Success(x + "." + Upper(Join(".", ds)))
    ensures PieceAfter(x + "." + Upper(Join(".", ds)), ".") == Success(Upper(ds[0]))
  {
    var head := "CN=" + x + ",OU=" + y;
    var dn := Join(",DC=", [head] + ds);
    RegroupDn("CN=" + x, ",OU=", y, ds);
    LeadingKeepsOu(x, y + ",DC=" + Join(",DC=", ds));
    DcDomainOfJoin(head, ds);
    ComputerNameOf(dn, x + ",OU", Join(".", ds));
    StripOu(x);
    DotSplitsName(x, ds);
  }

  /** A group without userPrincipalName whose DN is `CN=x,OU=y,DC=d1,...,DC=dk`
      is named upper(x)@upper(d1.....dk) with quotes turned into backticks,
      and its domain is the sanitized text after the `@`. */
  lemma GroupNameFromOuDn(x: string, y: string, ds: seq<string>)
    requires '=' !in x && ',' !in x && '@' !in x
    requires |ds| >= 1
    requires !Contains("CN=" + x + ",OU=" + y, ",DC=")
    requires forall i :: 0 <= i < |ds| ==> !Contains(ds[i], ",DC=") && '@' !in ds[i]
    ensures GroupNameFromDn(Join(",DC=", ["CN=" + x + ",OU=" + y] + ds))
         == Success(Upper(Sanitize(x)) + "@" + Sanitize(Upper(Join(".", ds))))
    ensures PieceAfter(Upper(Sanitize(x)) + "@" + Sanitize(Upper(Join(".", ds))), "@")
         == Success(Sanitize(Upper(Join(".", ds))))
  {
    var head := "CN=" + x + ",OU=" + y;
    var dn := Join(",DC=", [head] + ds);
    RegroupDn("CN=" + x, ",OU=", y, ds);
    LeadingKeepsOu(x, y + ",DC=" + Join(",DC=", ds));
    DcDomainOfJoin(head, ds);
    var d := Join(".", ds);
    GroupNameOf(dn, x + ",OU", d);
    StripOu(x);
    JoinAvoidsChar(".", ds, '@');
    SanitizeUpperCommute(x);
    SanitizeUpperCommute(d);
    SanitizeAvoidsAt(x);
    SanitizeAvoidsAt(d);
    AtSplitsName(Sanitize(x), Sanitize(d));
  }

  lemma SanitizeAvoidsAt(s: string)
    requires '@' !in s
    ensures '@' !in Sanitize(s)
  {
    var r := Sanitize(s);
    forall i | 0 <= i < |r| ensures r[i] != '@' {
      assert s[i] in s;
    }
  }
}

=== FILE: numerals.dfy ===
/**
 * Python's integer-to-text conversions: `str(n)` (decimal) and `hex(n)`
 * (lower-case, `0x`-prefixed), with the decimal reading that inverts `str`.
 */
module Numerals {

  function DigitChar(d: nat): char
    requires d < 16
  {
    "0123456789abcdef"[d]
  }

  predicate IsDecimalDigit(c: char) {
    '0' <= c <= '9'
  }

  function DigitValue(c: char): nat
    requires IsDecimalDigit(c)
  {
    c as int - '0' as int
  }

  /** Python `str(n)` for `n >= 0`. */
  function Dec(n: nat): string
    decreases n
  {
    if n < 10 then [DigitChar(n)] else Dec(n / 10) + [DigitChar(n % 10)]
  }

  /** Python `str(n)` for any integer. */
  function IntStr(n: int): string
  {
    if n < 0 then "-" + Dec(-n) else Dec(n)
  }

  /** The lower-case hexadecimal digits of `n`, no leading zeros. */
  function HexDigits(n: nat): string
    decreases n
  {
    if n < 16 then [DigitChar(n)] else HexDigits(n / 16) + [DigitChar(n % 16)]
  }

  /** Python `hex(n)` for `n >= 0`. */
  function Hex(n: nat): string
  {
    "0x" + HexDigits(n)
  }

  /** The value of a string of decimal digits, read most significant first. */
  function DecValue(s: string): nat
    requires forall i :: 0 <= i < |s| ==> IsDecimalDigit(s[i])
  {
    if |s| == 0 then 0 else DecValue(s[..|s| - 1]) * 10 + DigitValue(s[|s| - 1])
  }

  /** `str(n)` is a non-empty string of decimal digits with no leading zero. */
  lemma {:induction false} DecWellFormed(n: nat)
    ensures |Dec(n)| >= 1
    ensures forall i :: 0 <= i < |Dec(n)| ==> IsDecimalDigit(Dec(n)[i])
    ensures Dec(n)[0] == '0' <==> n == 0
    decreases n
  {
    if n >= 10 {
      DecWellFormed(n / 10);
    }
  }

  /** Reading back the decimal text of `n` gives `n`. */
  lemma {:induction false} DecRoundTrip(n: nat)
    ensures forall i :: 0 <= i < |Dec(n)| ==> IsDecimalDigit(Dec(n)[i])
    ensures DecValue(Dec(n)) == n
    decreases n
  {
    DecWellFormed(n);
    if n >= 10 {
      DecRoundTrip(n / 10);
      var s := Dec(n);
      assert s[..|s| - 1] == Dec(n / 10);
    }
  }

  /** Decimal text is injective: different numbers print differently. */
  lemma DecInjective(m: nat, n: nat)
    requires Dec(m) == Dec(n)
    ensures m == n
  {
    DecRoundTrip(m);
    DecRoundTrip(n);
  }

  /** Decimal text contains no separator characters used by the converter. */
  lemma DecHasNoSeparators(n: nat)
    ensures '-' !in Dec(n) && '.' !in Dec(n) && '@' !in Dec(n)
  {
    DecWellFormed(n);
  }

  predicate IsHexDigit(c: char) {
    '0' <= c <= '9' || 'a' <= c <= 'f'
  }

  function HexDigitValue(c: char): nat
    requires IsHexDigit(c)
  {
    if c <= '9' then c as int - '0' as int else c as int - 'a' as int + 10
  }

  /** The value of a string of lower-case hexadecimal digits, most significant first. */
  function HexValue(s: string): nat
    requires forall i :: 0 <= i < |s| ==> IsHexDigit(s[i])
  {
    if |s| == 0 then 0 else HexValue(s[..|s| - 1]) * 16 + HexDigitValue(s[|s| - 1])
  }

  /** Every digit character reads back as its value. */
  lemma DigitCharValue(d: nat)
    requires d < 16
    ensures IsHexDigit(DigitChar(d)) && HexDigitValue(DigitChar(d)) == d
  {
  }

  /** Reading back the hexadecimal digits of `n` gives `n`. */
  lemma {:induction false} HexDigitsRoundTrip(n: nat)
    ensures |HexDigits(n)| >= 1
    ensures forall i :: 0 <= i < |HexDigits(n)| ==> IsHexDigit(HexDigits(n)[i])
    ensures HexValue(HexDigits(n)) == n
    decreases n
  {
    DigitCharValue(n % 16);
    if n >= 16 {
      HexDigitsRoundTrip(n / 16);
      var s := HexDigits(n);
      assert s[..|s| - 1] == HexDigits(n / 16);
    }
  }

  /** `hex(n)` is `0x` followed by digits whose value is `n`. */
  lemma HexRoundTrip(n: nat)
    ensures |Hex(n)| >= 3 && Hex(n)[..2] == "0x"
    ensures forall i :: 2 <= i < |Hex(n)| ==> IsHexDigit(Hex(n)[i])
    ensures HexValue(Hex(n)[2..]) == n
  {
    HexDigitsRoundTrip(n);
    assert Hex(n)[2..] == HexDigits(n);
  }

  /** Hexadecimal text after its prefix contains no `-`. */
  lemma {:induction false} HexHasNoDash(n: nat)
    ensures '-' !in Hex(n)
    decreases n
  {
    if n >= 16 {
      HexHasNoDash(n / 16);
      assert Hex(n) == Hex(n / 16) + [DigitChar(n % 16)];
    }
  }
}

=== FILE: pipeline.dfy ===
/**
 * The conversion run: which passes run, in which order, and how the
 * reference table travels from the users pass to the groups pass.
 */
module Pipeline {
  import opened Wrappers
  import opened Records
  import opened RefTable
  import Users
  import Computers
  import Groups
  import Domains

  /** The `-u`, `-c`, `-g`, `-d` switches. */
  datatype Selection = Selection(users: bool, computers: bool, groups: bool, domains: bool)

  /** The four input files, already parsed into records. */
  datatype Inputs = Inputs(users: seq<Attrs>, computers: seq<Attrs>, groups: seq<Attrs>, domains: seq<Attrs>)

  /** The documents written; None for a pass that did not run. */
  datatype Outputs = Outputs(
    users: Option<Collection<Users.UserNode>>,
    computers: Option<Collection<Computers.ComputerNode>>,
    groups: Option<Collection<Groups.GroupNode>>,
    domains: Option<Collection<Domains.DomainNode>>)

  /** No switch at all selects every pass. */
  function Effective(sel: Selection): (s: Selection)
    ensures !sel.users && !sel.computers && !sel.groups && !sel.domains ==> s == Selection(true, true, true, true)
    ensures sel.users || sel.computers || sel.groups || sel.domains ==> s == sel
  {
    if !sel.users && !sel.computers && !sel.groups && !sel.domains then Selection(true, true, true, true) else sel
  }

  /** The users pass when selected, with the table it leaves (empty otherwise). */
  function RunUsers(run: bool, users: seq<Attrs>, lib: Library): Result<(Option<Collection<Users.UserNode>>, Table), Error>
  {
    if run then
      var (c, t) :- Users.ParseUsers(users, lib, map[]);
      Success((Some(c), t))
    else Success((None, map[]))
  }

  /** Users, computers, groups, domains in that order; the first exception
      ends the run. The groups pass runs its own users pre-pass exactly when
      the users pass did not run. */
  function Run(sel: Selection, inputs: Inputs, lib: Library): (r: Result<Outputs, Error>)
    ensures r.Success? ==>
      && (r.value.users.Some? <==> Effective(sel).users)
      && (r.value.computers.Some? <==> Effective(sel).computers)
      && (r.value.groups.Some? <==> Effective(sel).groups)
      && (r.value.domains.Some? <==> Effective(sel).domains)
  {
    var s := Effective(sel);
    var (us, t) :- RunUsers(s.users, inputs.users, lib);
    var cs :- if s.computers then
                var c :- Computers.ParseComputers(inputs.computers, lib); Success(Some(c))
              else Success(None);
    var gs :- if s.groups then
                var (g, _) :- Groups.ParseGroups(inputs.groups, inputs.users, !s.users, t); Success(Some(g))
              else Success(None);
    var ds :- if s.domains then
                var d :- Domains.ParseDomains(inputs.domains, lib); Success(Some(d))
              else Success(None);
    Success(Outputs(us, cs, gs, ds))
  }

  // ---------------------------------------------------------------------------
  // Lemmas

  /** The groups document does not depend on whether the users pass ran:
      a successful users pass leaves the table the users pre-pass would build. */
  lemma GroupsIndependentOfUsersPass(groups: seq<Attrs>, users: seq<Attrs>, lib: Library)
    requires Users.ParseUsers(users, lib, map[]).Success?
    ensures Groups.ParseGroups(groups, users, false, Users.ParseUsers(users, lib, map[]).value.1)
         == Groups.ParseGroups(groups, users, true, map[])
  {
    Users.UsersPassTableIsPrePassTable(users, lib, map[]);
  }

  /** Running only the groups pass gives the groups document a full run gives,
      whenever the full run succeeds. */
  lemma GroupsAloneMatchFullRun(inputs: Inputs, lib: Library)
    requires Run(Selection(true, true, true, true), inputs, lib).Success?
    ensures Run(Selection(false, false, true, false), inputs, lib).Success?
    ensures Run(Selection(false, false, true, false), inputs, lib).value.groups
         == Run(Selection(true, true, true, true), inputs, lib).value.groups
  {
    var users := Users.ParseUsers(inputs.users, lib, map[]);
    assert RunUsers(true, inputs.users, lib) == Success((Some(users.value.0), users.value.1));
    GroupsIndependentOfUsersPass(inputs.groups, inputs.users, lib);
  }
}

=== FILE: records.dfy ===
/**
 * The raw input records (ldapdomaindump attribute bags), the errors that
 * escape a pipeline, and the small pieces shared by every pipeline.
 */
module Records {
  import opened Wrappers
  import opened Numerals
  import SidCodec

  /** One directory attribute value as ldapdomaindump writes it: a string,
      an integer, or (for `securityIdentifier`) an object carrying an
      encoding name and the encoded text. */
  datatype Value =
    | Text(s: string)
    | Number(n: int)
    | Encoded(encoding: string, encoded: string)

  /** The `attributes` object of one record: every attribute is a list. */
  type Attrs = map<string, seq<Value>>

  /** The Python exceptions that can escape a pipeline. None is caught
      there, so any of them ends the conversion. */
  datatype Error =
    | KeyError(key: string)      // an absent attribute was indexed
    | IndexError(what: string)   // `[0]` of an empty list, or `[1]` of a one-piece split
    | TypeError(key: string)     // a value of the wrong type: Python's AttributeError for a missing
                                 // string method, its TypeError for `&`, `strptime` or `['encoding']`
    | DecodeError                // `base64.b64decode` rejected the encoded text

  /** The kind tag stored in the reference table and in member lists. */
  datatype Kind = User | Computer | Group

  /** A `{"MemberId": ..., "MemberType": ...}` entry. */
  datatype Member = Member(memberId: Value, memberType: Kind)

  /** Library routines the model does not look inside: `to_epoch`
      (calendar parsing through `datetime.strptime`, -1 on a malformed
      string) and `base64.b64decode` (None when it raises). */
  datatype Library = Library(
    toEpoch: string -> int,
    b64decode: string -> Option<seq<SidCodec.byte>>)

  /** The schema version written into every envelope. */
  const SchemaVersion: nat := 3

  /** One output document: `{"<kind>": [...], "meta": {"type": "<kind>", "count": N, "version": 3}}`. */
  datatype Collection<T> = Collection(kind: string, items: seq<T>, count: nat, version: nat)

  /** Python `str(v)`. For an encoded object this is the dict's repr, written
      here for strings that need no escaping. */
  function Str(v: Value): string
  {
    match v
    case Text(s) => s
    case Number(n) => IntStr(n)
    case Encoded(e, x) => "{'encoding': '" + e + "', 'encoded': '" + x + "'}"
  }

  /** `attrs[key][0]`. */
  function First(a: Attrs, key: string): (r: Result<Value, Error>)
    ensures r.Success? <==> key in a && |a[key]| > 0
    ensures r.Success? ==> r.value == a[key][0]
    ensures key !in a ==> r == Failure(KeyError(key))
    ensures key in a && |a[key]| == 0 ==> r == Failure(IndexError(key))
  {
    if key !in a then Failure(KeyError(key))
    else if |a[key]| == 0 then Failure(IndexError(key))
    else Success(a[key][0])
  }

  /** `attrs[key][0]` used where a string method follows. */
  function FirstText(a: Attrs, key: string): (r: Result<string, Error>)
    ensures r.Success? <==> key in a && |a[key]| > 0 && a[key][0].Text?
    ensures r.Success? ==> r.value == a[key][0].s
  {
    var v :- First(a, key);
    if v.Text? then Success(v.s) else Failure(TypeError(key))
  }

  /** `attrs[key][0]` used as the left operand of `&`. */
  function FirstNumber(a: Attrs, key: string): (r: Result<int, Error>)
    ensures r.Success? <==> key in a && |a[key]| > 0 && a[key][0].Number?
    ensures r.Success? ==> r.value == a[key][0].n
  {
    var v :- First(a, key);
    if v.Number? then Success(v.n) else Failure(TypeError(key))
  }

  /** A timestamp property: `to_epoch(attrs[key][0])` when the attribute is
      present, -1 when it is absent. A non-string value makes `strptime`
      raise TypeError, which `to_epoch` does not catch. */
  function Timestamp(a: Attrs, key: string, lib: Library): (r: Result<int, Error>)
    ensures key !in a ==> r == Success(-1)
    ensures key in a && |a[key]| > 0 && a[key][0].Text? ==> r == Success(lib.toEpoch(a[key][0].s))
    ensures r.Success? <==> (key in a ==> |a[key]| > 0 && a[key][0].Text?)
  {
    if key in a then
      var s :- FirstText(a, key);
      Success(lib.toEpoch(s))
    else Success(-1)
  }

  /** `ps[i]` of a split result. */
  function Piece(ps: seq<string>, i: nat): (r: Result<string, Error>)
    ensures r.Success? <==> i < |ps|
    ensures r.Success? ==> r.value == ps[i]
    ensures !r.Success? ==> r == Failure(IndexError("split"))
  {
    if i < |ps| then Success(ps[i]) else Failure(IndexError("split"))
  }

  /** Apply a per-record derivation to every record in order; the first
      failing record ends the whole pass with its error, as an uncaught
      exception ends the source's loop. */
  function MapAll<A, B>(xs: seq<A>, f: A -> Result<B, Error>): (r: Result<seq<B>, Error>)
    ensures r.Success? <==> forall i :: 0 <= i < |xs| ==> f(xs[i]).Success?
    ensures r.Success? ==> |r.value| == |xs| && forall i :: 0 <= i < |xs| ==> f(xs[i]) == Success(r.value[i])
    ensures r.Failure? ==> exists i :: 0 <= i < |xs| && f(xs[i]) == Failure(r.error)
                                      && forall j :: 0 <= j < i ==> f(xs[j]).Success?
  {
    if |xs| == 0 then Success([])
    else
      match f(xs[0])
      case Failure(e) => Failure(e)
      case Success(y) =>
        match MapAll(xs[1..], f)
        case Failure(e) =>
          assert forall i :: 1 <= i < |xs| ==> xs[i] == xs[1..][i - 1];
          Failure(e)
        case Success(ys) =>
          assert forall i :: 1 <= i < |xs| ==> xs[i] == xs[1..][i - 1];
          Success([y] + ys)
  }

  /** A map whose every step succeeds yields exactly the step results. */
  lemma MapAllPointwise<A, B>(xs: seq<A>, f: A -> Result<B, Error>, ys: seq<B>)
    requires |ys| == |xs|
    requires forall i :: 0 <= i < |xs| ==> f(xs[i]) == Success(ys[i])
    ensures MapAll(xs, f) == Success(ys)
  {
    var r := MapAll(xs, f);
    assert r.Success?;
    assert |r.value| == |ys|;
    assert forall i :: 0 <= i < |xs| ==> r.value[i] == ys[i];
    assert r.value == ys;
  }

  /** The envelope of a collection: the count is the number of items written. */
  function Envelope<T>(kind: string, items: seq<T>): (r: Collection<T>)
    ensures r.items == items && r.count == |items| && r.version == SchemaVersion && r.kind == kind
  {
    Collection(kind, items, |items|, SchemaVersion)
  }
}

=== FILE: reftable.dfy ===
/**
 * The `db` reference table: distinguished name -> (object SID, kind). The
 * users pass (or its stand-in pre-pass) and the group pre-pass fill it;
 * group membership resolution reads it.
 */
module RefTable {
  import opened Wrappers
  import opened Strings
  import opened Records
  import Naming

  type Entry = (string, (Value, Kind))
  type Table = map<string, (Value, Kind)>

  /** A user DN naming a machine account (it holds a `$`) is tagged Computer. */
  function UserKind(dn: string): (k: Kind)
    ensures k == Computer <==> '$' in dn
    ensures k == User <==> '$' !in dn
  {
    ContainsCharIff(dn, '$');
    if Contains(dn, "$") then Computer else User
  }

  /** `db[key] = value` for each entry in order: later writes win. */
  function Register(entries: seq<Entry>, t: Table): (r: Table)
    ensures forall k :: k in t ==> k in r
    ensures forall i :: 0 <= i < |entries| ==> entries[i].0 in r
    decreases |entries|
  {
    if |entries| == 0 then t
    else Register(entries[1..], t[entries[0].0 := entries[0].1])
  }

  /** The value the last write for `k` put there, read from the end. */
  function LastWrite(entries: seq<Entry>, k: string): Option<(Value, Kind)>
    decreases |entries|
  {
    if |entries| == 0 then None
    else if entries[|entries| - 1].0 == k then Some(entries[|entries| - 1].1)
    else LastWrite(entries[..|entries| - 1], k)
  }

  /** The table after the writes holds, for each key, its last write, or
      what it held before when no entry wrote it. */
  lemma {:induction false} RegisterIsLastWrite(entries: seq<Entry>, t: Table, k: string)
    ensures k in Register(entries, t) <==> LastWrite(entries, k).Some? || k in t
    ensures k in Register(entries, t) ==>
      Register(entries, t)[k] == (if LastWrite(entries, k).Some? then LastWrite(entries, k).value else t[k])
    decreases |entries|
  {
    if |entries| > 0 {
      var e := entries[0];
      var rest := entries[1..];
      RegisterIsLastWrite(rest, t[e.0 := e.1], k);
      LastWriteCons(e, rest, k);
      assert entries == [e] + rest;
    }
  }

  /** Reading the last write of `[e] + rest` looks in `rest` first. */
  lemma {:induction false} LastWriteCons(e: Entry, rest: seq<Entry>, k: string)
    ensures LastWrite([e] + rest, k)
         == (if LastWrite(rest, k).Some? then LastWrite(rest, k) else if e.0 == k then Some(e.1) else None)
    decreases |rest|
  {
    var es := [e] + rest;
    if |rest| > 0 {
      assert es[..|es| - 1] == [e] + rest[..|rest| - 1];
      assert es[|es| - 1] == rest[|rest| - 1];
      LastWriteCons(e, rest[..|rest| - 1], k);
    }
  }

  // ---------------------------------------------------------------------------
  // Writers

  /** The write the users pass makes for one record: the sanitized DN keyed
      to the raw objectSid, tagged by `UserKind`. */
  function UserEntry(a: Attrs): (r: Result<Entry, Error>)
    ensures r.Success? <==> (&& "distinguishedName" in a && |a["distinguishedName"]| > 0
                             && a["distinguishedName"][0].Text?
                             && "objectSid" in a && |a["objectSid"]| > 0)
    ensures r.Success? ==>
      var key := Naming.Sanitize(a["distinguishedName"][0].s);
      r.value == (key, (a["objectSid"][0], UserKind(key)))
    ensures r.Success? ==> r.value.1.1 == UserKind(r.value.0) && r.value.1.1 != Group
    ensures r.Success? ==> '"' !in r.value.0 && '\'' !in r.value.0
  {
    var dn :- FirstText(a, "distinguishedName");
    var sid :- First(a, "objectSid");
    var key := Naming.Sanitize(dn);
    Naming.SanitizeRemovesQuotes(dn);
    Success((key, (sid, UserKind(key))))
  }

  /** The write the group pre-pass makes for one record: the raw DN keyed to
      the raw objectSid, tagged Group. */
  function GroupEntry(a: Attrs): (r: Result<Entry, Error>)
    ensures r.Success? <==> (&& "objectSid" in a && |a["objectSid"]| > 0
                             && "distinguishedName" in a && |a["distinguishedName"]| > 0
                             && a["distinguishedName"][0].Text?)
    ensures r.Success? ==> r.value == (a["distinguishedName"][0].s, (a["objectSid"][0], Group))
  {
    var sid :- First(a, "objectSid");
    var dn :- FirstText(a, "distinguishedName");
    Success((dn, (sid, Group)))
  }

  /** The users pre-pass that stands in for the users pass when it did not run. */
  function RegisterUsers(users: seq<Attrs>, t: Table): (r: Result<Table, Error>)
    ensures r.Success? <==> forall i :: 0 <= i < |users| ==> UserEntry(users[i]).Success?
    ensures r.Success? ==> forall k :: k in t ==> k in r.value
    ensures r.Success? ==> forall i :: 0 <= i < |users| ==> UserEntry(users[i]).value.0 in r.value
  {
    var es :- MapAll(users, UserEntry);
    Success(Register(es, t))
  }

  /** "First build up group sids": every group DN enters the table before
      any membership is resolved. */
  function RegisterGroups(groups: seq<Attrs>, t: Table): (r: Result<Table, Error>)
    ensures r.Success? <==> forall i :: 0 <= i < |groups| ==> GroupEntry(groups[i]).Success?
    ensures r.Success? ==> forall k :: k in t ==> k in r.value
    ensures r.Success? ==> forall i :: 0 <= i < |groups| ==>
      GroupEntry(groups[i]).Success? && GroupEntry(groups[i]).value.0 in r.value
  {
    var es :- MapAll(groups, GroupEntry);
    Success(Register(es, t))
  }

  /** After the group pre-pass every group DN is tagged Group and holds the
      objectSid of the last group record with that DN. */
  lemma GroupPrePassTagsGroups(groups: seq<Attrs>, t: Table, i: nat)
    requires i < |groups|
    requires RegisterGroups(groups, t).Success?
    ensures var e := GroupEntry(groups[i]).value;
            var r := RegisterGroups(groups, t).value;
            e.0 in r && r[e.0].1 == Group
            && exists j :: i <= j < |groups| && GroupEntry(groups[j]).value.0 == e.0
                         && r[e.0] == GroupEntry(groups[j]).value.1
  {
    var es := MapAll(groups, GroupEntry).value;
    var k := es[i].0;
    RegisterIsLastWrite(es, t, k);
    LastWriteFrom(es, k, i);
  }

  /** A key no group record writes keeps, through the group pre-pass, the
      value it held before: user entries survive unless a group shares the DN. */
  lemma RegisterGroupsKeepsOthers(groups: seq<Attrs>, t: Table, k: string)
    requires RegisterGroups(groups, t).Success?
    requires k in t
    requires forall i :: 0 <= i < |groups| ==> GroupEntry(groups[i]).value.0 != k
    ensures k in RegisterGroups(groups, t).value && RegisterGroups(groups, t).value[k] == t[k]
  {
    var es := MapAll(groups, GroupEntry).value;
    LastWriteNone(es, k);
    RegisterIsLastWrite(es, t, k);
  }

  /** After the users pre-pass every user's sanitized DN is a key, tagged
      User or Computer by the DN of the last user record with that key,
      and carrying that record's objectSid. */
  lemma UserPrePassTagsUsers(users: seq<Attrs>, t: Table, i: nat)
    requires i < |users|
    requires RegisterUsers(users, t).Success?
    ensures var e := UserEntry(users[i]).value;
            var r := RegisterUsers(users, t).value;
            e.0 in r && r[e.0].1 == UserKind(e.0) && r[e.0].1 != Group
            && exists j :: i <= j < |users| && UserEntry(users[j]).value.0 == e.0
                         && r[e.0] == UserEntry(users[j]).value.1
  {
    var es := MapAll(users, UserEntry).value;
    var k := es[i].0;
    RegisterIsLastWrite(es, t, k);
    LastWriteFrom(es, k, i);
  }

  /** A key no entry writes has no last write. */
  lemma {:induction false} LastWriteNone(es: seq<Entry>, k: string)
    requires forall i :: 0 <= i < |es| ==> es[i].0 != k
    ensures LastWrite(es, k) == None
    decreases |es|
  {
    if |es| > 0 {
      LastWriteNone(es[..|es| - 1], k);
    }
  }

  /** A key written at index i has a last write at some index at or after i. */
  lemma {:induction false} LastWriteFrom(es: seq<Entry>, k: string, i: nat)
    requires i < |es| && es[i].0 == k
    ensures LastWrite(es, k).Some?
    ensures exists j :: i <= j < |es| && es[j].0 == k && LastWrite(es, k).value == es[j].1
    decreases |es|
  {
    if es[|es| - 1].0 != k {
      LastWriteFrom(es[..|es| - 1], k, i);
      var j :| i <= j < |es| - 1 && es[..|es| - 1][j].0 == k
               && LastWrite(es[..|es| - 1], k).value == es[..|es| - 1][j].1;
      assert es[j] == es[..|es| - 1][j];
    }
  }

  // ---------------------------------------------------------------------------
  // Membership

  /** A `member` value the table can resolve: a text DN that is a key. */
  predicate Resolves(m: Value, t: Table) {
    m.Text? && m.s in t
  }

  /** `build_mem_dict(*db[m])`. */
  function Resolved(m: Value, t: Table): Member
    requires Resolves(m, t)
  {
    Member(t[m.s].0, t[m.s].1)
  }

  /** The member loop inside `try: ... except: pass`: entries are appended
      until the first DN that is not a key, and the rest are dropped. */
  function ResolveMembers(ms: seq<Value>, t: Table): (r: seq<Member>)
    ensures |r| <= |ms|
    ensures forall i :: 0 <= i < |r| ==> Resolves(ms[i], t) && r[i] == Resolved(ms[i], t)
    ensures |r| < |ms| ==> !Resolves(ms[|r|], t)
  {
    if |ms| == 0 then []
    else if Resolves(ms[0], t) then
      assert forall i :: 1 <= i < |ms| ==> ms[i] == ms[1..][i - 1];
      [Resolved(ms[0], t)] + ResolveMembers(ms[1..], t)
    else []
  }

  /** A group's Members: an absent `member` attribute raises KeyError inside
      the `try`, which leaves the list empty. */
  function GroupMembers(a: Attrs, t: Table): seq<Member>
  {
    if "member" in a then ResolveMembers(a["member"], t) else []
  }

  /** The members list is the longest resolvable prefix: any list that
      resolves a prefix in order and stops at an unresolvable DN (or the
      end) is the one `ResolveMembers` returns. */
  lemma {:induction false} LongestResolvablePrefix(ms: seq<Value>, t: Table, r: seq<Member>)
    requires |r| <= |ms|
    requires forall i :: 0 <= i < |r| ==> Resolves(ms[i], t) && r[i] == Resolved(ms[i], t)
    requires |r| < |ms| ==> !Resolves(ms[|r|], t)
    ensures r == ResolveMembers(ms, t)
  {
    var q := ResolveMembers(ms, t);
    assert |r| == |q|;
    assert forall i :: 0 <= i < |r| ==> r[i] == q[i];
  }

  /** Every member entry resolves some DN of the list to its table value,
      and only an unresolvable DN stops the list early. */
  lemma MembersComeFromTable(ms: seq<Value>, t: Table, i: nat)
    requires i < |ResolveMembers(ms, t)|
    ensures ms[i].Text? && ms[i].s in t
    ensures ResolveMembers(ms, t)[i] == Member(t[ms[i].s].0, t[ms[i].s].1)
  {
  }

  /** All members resolve exactly when every listed DN is a key. */
  lemma {:induction false} AllMembersResolve(ms: seq<Value>, t: Table)
    ensures |ResolveMembers(ms, t)| == |ms| <==> forall i :: 0 <= i < |ms| ==> Resolves(ms[i], t)
  {
    var r := ResolveMembers(ms, t);
    if |r| < |ms| {
      assert !Resolves(ms[|r|], t);
    }
  }
}

=== FILE: sid.dfy ===
/**
 * The security-identifier codec: the binary SID layout of MS-DTYP
 * section 2.4.2 (revision byte, sub-authority count byte, 6-byte big-endian
 * identifier authority, 4-byte little-endian sub-authorities) rendered as
 * `S-<revision>-<authority>-<sub1>-...`.
 */
module SidCodec {
  import opened Wrappers
  import opened Strings
  import opened Numerals

  /** One element of a Python `bytes` object. */
  newtype byte = x: int | 0 <= x < 256

  /** Python `s[lo:hi]` for `0 <= lo <= hi`: bounds past the end are clipped. */
  function Slice(s: seq<byte>, lo: nat, hi: nat): (r: seq<byte>)
    requires lo <= hi
    ensures hi <= |s| ==> r == s[lo..hi]
    ensures lo < |s| < hi ==> r == s[lo..]
    ensures |s| <= lo ==> r == []
    ensures |r| <= hi - lo
  {
    if |s| <= lo then [] else if |s| <= hi then s[lo..] else s[lo..hi]
  }

  /** Python `int.from_bytes(bs, byteorder='big')`. */
  function BigEndian(bs: seq<byte>): nat
  {
    if |bs| == 0 then 0 else BigEndian(bs[..|bs| - 1]) * 256 + bs[|bs| - 1] as nat
  }

  /** Python `int.from_bytes(bs, byteorder='little')`. */
  function LittleEndian(bs: seq<byte>): nat
  {
    if |bs| == 0 then 0 else bs[0] as nat + 256 * LittleEndian(bs[1..])
  }

  /** Authorities of 2^32 and above are printed with Python `hex()`. */
  const HexAuthorityBound: nat := 0x1_0000_0000

  function AuthorityText(a: nat): string
  {
    if a >= HexAuthorityBound then Hex(a) else Dec(a)
  }

  /** The decimal texts of the first `n` little-endian 4-byte groups after byte 8. */
  function SubAuthorityTexts(sid: seq<byte>, n: nat): (r: seq<string>)
    ensures |r| == n
  {
    seq(n, i requires 0 <= i < n => Dec(LittleEndian(Slice(sid, 8 + 4 * i, 12 + 4 * i))))
  }

  /** `sid_to_str` under Python 3. Indexing bytes 0 and 1 is the only step
      that can raise, so the result is None exactly for inputs shorter than
      two bytes; short slices further on read as fewer (or zero) bytes. */
  function SidToStr(sid: seq<byte>): (r: Option<string>)
    ensures r.Some? <==> |sid| >= 2
    ensures r.Some? ==> |r.value| >= 2 && r.value[..2] == "S-"
  {
    if |sid| < 2 then None
    else
      var revision := sid[0] as nat;
      var count := sid[1] as nat;
      var authority := BigEndian(Slice(sid, 2, 8));
      Some("S-" + Dec(revision) + "-" + AuthorityText(authority)
           + "-" + Join("-", SubAuthorityTexts(sid, count)))
  }

  // ---------------------------------------------------------------------------
  // The structured SID and its canonical text

  datatype Sid = Sid(revision: nat, authority: nat, subAuthorities: seq<nat>)

  /** Field ranges that fit the binary layout. */
  predicate WellFormed(s: Sid) {
    && s.revision < 256
    && s.authority < 0x1_0000_0000_0000
    && |s.subAuthorities| < 256
    && forall i :: 0 <= i < |s.subAuthorities| ==> s.subAuthorities[i] < 0x1_0000_0000
  }

  /** The decimal texts of a list of numbers. */
  function DecTexts(xs: seq<nat>): (r: seq<string>)
    ensures |r| == |xs|
  {
    seq(|xs|, i requires 0 <= i < |xs| => Dec(xs[i]))
  }

  /** The canonical text of a SID, written from its fields. */
  function SidText(s: Sid): string
  {
    "S-" + Dec(s.revision) + "-" + AuthorityText(s.authority) + "-" + Join("-", DecTexts(s.subAuthorities))
  }

  function Pow256(w: nat): nat
  {
    if w == 0 then 1 else 256 * Pow256(w - 1)
  }

  function BigEndianBytes(n: nat, w: nat): (r: seq<byte>)
    ensures |r| == w
  {
    if w == 0 then [] else BigEndianBytes(n / 256, w - 1) + [(n % 256) as byte]
  }

  function LittleEndianBytes(n: nat, w: nat): (r: seq<byte>)
    ensures |r| == w
  {
    if w == 0 then [] else [(n % 256) as byte] + LittleEndianBytes(n / 256, w - 1)
  }

  function SubAuthorityBytes(subs: seq<nat>): (r: seq<byte>)
    ensures |r| == 4 * |subs|
  {
    if |subs| == 0 then [] else LittleEndianBytes(subs[0], 4) + SubAuthorityBytes(subs[1..])
  }

  /** The binary layout of a well-formed SID. */
  function Encode(s: Sid): (r: seq<byte>)
    requires WellFormed(s)
    ensures |r| == 8 + 4 * |s.subAuthorities|
  {
    [s.revision as byte, |s.subAuthorities| as byte]
    + BigEndianBytes(s.authority, 6)
    + SubAuthorityBytes(s.subAuthorities)
  }

  // ---------------------------------------------------------------------------
  // Lemmas

  lemma {:induction false} BigEndianRoundTrip(n: nat, w: nat)
    requires n < Pow256(w)
    ensures BigEndian(BigEndianBytes(n, w)) == n
  {
    if w > 0 {
      var q, r := n / 256, n % 256;
      var bs := BigEndianBytes(n, w);
      assert q < Pow256(w - 1);
      BigEndianRoundTrip(q, w - 1);
      assert bs[..|bs| - 1] == BigEndianBytes(q, w - 1);
      assert BigEndian(bs) == q * 256 + r;
    }
  }

  lemma {:induction false} LittleEndianRoundTrip(n: nat, w: nat)
    requires n < Pow256(w)
    ensures LittleEndian(LittleEndianBytes(n, w)) == n
  {
    if w > 0 {
      var q, r := n / 256, n % 256;
      var bs := LittleEndianBytes(n, w);
      assert q < Pow256(w - 1);
      LittleEndianRoundTrip(q, w - 1);
      assert bs[1..] == LittleEndianBytes(q, w - 1);
      assert LittleEndian(bs) == r + 256 * q;
    }
  }

  /** The i-th 4-byte group of the sub-authority block encodes the i-th sub-authority. */
  lemma {:induction false} SubAuthorityBytesAt(subs: seq<nat>, i: nat)
    requires i < |subs|
    ensures SubAuthorityBytes(subs)[4 * i..4 * i + 4] == LittleEndianBytes(subs[i], 4)
  {
    var bs := SubAuthorityBytes(subs);
    assert bs == LittleEndianBytes(subs[0], 4) + SubAuthorityBytes(subs[1..]);
    if i > 0 {
      SubAuthorityBytesAt(subs[1..], i - 1);
      assert bs[4 * i..4 * i + 4] == SubAuthorityBytes(subs[1..])[4 * (i - 1)..4 * (i - 1) + 4];
    }
  }

  /** `SidToStr` assembles the canonical text of whatever its three fields decode to. */
  lemma SidToStrFromFields(sid: seq<byte>, subs: seq<nat>)
    requires |sid| >= 2
    requires SubAuthorityTexts(sid, sid[1] as nat) == DecTexts(subs)
    ensures SidToStr(sid) == Some(SidText(Sid(sid[0] as nat, BigEndian(Slice(sid, 2, 8)), subs)))
  {
  }

  lemma AuthorityOfEncode(s: Sid)
    requires WellFormed(s)
    ensures BigEndian(Slice(Encode(s), 2, 8)) == s.authority
  {
    assert Slice(Encode(s), 2, 8) == BigEndianBytes(s.authority, 6);
    assert Pow256(6) == 0x1_0000_0000_0000;
    BigEndianRoundTrip(s.authority, 6);
  }

  lemma SubAuthorityOfEncode(s: Sid, i: nat)
    requires WellFormed(s) && i < |s.subAuthorities|
    ensures LittleEndian(Slice(Encode(s), 8 + 4 * i, 12 + 4 * i)) == s.subAuthorities[i]
  {
    var e := Encode(s);
    var block := SubAuthorityBytes(s.subAuthorities);
    SubAuthorityBytesAt(s.subAuthorities, i);
    assert e[8..] == block;
    assert Slice(e, 8 + 4 * i, 12 + 4 * i) == block[4 * i..4 * i + 4];
    assert Pow256(4) == 0x1_0000_0000;
    LittleEndianRoundTrip(s.subAuthorities[i], 4);
  }

  lemma HeaderOfEncode(s: Sid)
    requires WellFormed(s)
    ensures |Encode(s)| >= 2
    ensures Encode(s)[0] as nat == s.revision && Encode(s)[1] as nat == |s.subAuthorities|
  {
  }

  lemma SubAuthorityTextsOfEncode(s: Sid)
    requires WellFormed(s)
    ensures SubAuthorityTexts(Encode(s), |s.subAuthorities|) == DecTexts(s.subAuthorities)
  {
    var e := Encode(s);
    forall i | 0 <= i < |s.subAuthorities|
      ensures LittleEndian(Slice(e, 8 + 4 * i, 12 + 4 * i)) == s.subAuthorities[i]
    {
      SubAuthorityOfEncode(s, i);
    }
    SubAuthorityTextsOfGroups(e, s.subAuthorities);
  }

  /** Sub-authority groups that read back as `subs` give the decimal texts of `subs`. */
  lemma SubAuthorityTextsOfGroups(sid: seq<byte>, subs: seq<nat>)
    requires forall i :: 0 <= i < |subs| ==> LittleEndian(Slice(sid, 8 + 4 * i, 12 + 4 * i)) == subs[i]
    ensures SubAuthorityTexts(sid, |subs|) == DecTexts(subs)
  {
    var texts := SubAuthorityTexts(sid, |subs|);
    assert forall i :: 0 <= i < |subs| ==> texts[i] == DecTexts(subs)[i];
  }

  /** Decoding the binary layout of a well-formed SID yields its canonical text. */
  lemma DecodeEncode(s: Sid)
    requires WellFormed(s)
    ensures SidToStr(Encode(s)) == Some(SidText(s))
  {
    HeaderOfEncode(s);
    AuthorityOfEncode(s);
    SubAuthorityTextsOfEncode(s);
    SidToStrFromFields(Encode(s), s.subAuthorities);
  }

  /** Any byte string long enough for the sub-authority count it declares
      decodes to the canonical text of the SID its fields denote. */
  lemma DecodeLongEnough(sid: seq<byte>)
    requires |sid| >= 2 && |sid| >= 8 + 4 * (sid[1] as nat)
    ensures SidToStr(sid) == Some(SidText(Sid(
      sid[0] as nat,
      BigEndian(sid[2..8]),
      seq(sid[1] as nat, i requires 0 <= i < sid[1] as nat => LittleEndian(sid[8 + 4 * i..12 + 4 * i])))))
  {
    var n := sid[1] as nat;
    var subs := seq(n, i requires 0 <= i < n => LittleEndian(sid[8 + 4 * i..12 + 4 * i]));
    var texts := SubAuthorityTexts(sid, n);
    forall i | 0 <= i < n ensures texts[i] == DecTexts(subs)[i] {
      assert Slice(sid, 8 + 4 * i, 12 + 4 * i) == sid[8 + 4 * i..12 + 4 * i];
    }
    assert texts == DecTexts(subs);
    assert Slice(sid, 2, 8) == sid[2..8];
    SidToStrFromFields(sid, subs);
  }

  /** With no sub-authorities the text ends in a dangling `-`. */
  lemma NoSubAuthoritiesLeavesTrailingDash()
    ensures SidToStr([1, 0, 0, 0, 0, 0, 0, 5]) == Some("S-1-5-")
  {
    var sid: seq<byte> := [1, 0, 0, 0, 0, 0, 0, 5];
    var auth: seq<byte> := [0, 0, 0, 0, 0, 5];
    assert Slice(sid, 2, 8) == auth;
    var z: seq<byte> := [0, 0, 0, 0, 0];
    assert auth[..5] == z;
    assert z[..4] == [0, 0, 0, 0] && z[..4][..3] == [0, 0, 0];
    assert z[..4][..3][..2] == [0, 0] && z[..4][..3][..2][..1] == [0];
    assert BigEndian(z[..4][..3][..2][..1]) == 0;
    assert BigEndian(z[..4][..3][..2]) == 0;
    assert BigEndian(z[..4][..3]) == 0;
    assert BigEndian(z[..4]) == 0;
    assert BigEndian(z) == 0;
    assert BigEndian(auth) == 5;
    assert Dec(1) == "1" && Dec(5) == "5";
    assert SubAuthorityTexts(sid, 0) == [];
    assert SidToStr(sid) == Some("S-" + "1" + "-" + "5" + "-" + "");
    assert "S-" + "1" + "-" + "5" + "-" + "" == "S-1-5-";
  }

  /** A two-byte input that declares three sub-authorities reads every
      missing field as zero instead of failing. */
  lemma TruncatedInputReadsZeros()
    ensures SidToStr([1, 3]) == Some("S-1-0-0-0-0")
  {
    var sid: seq<byte> := [1, 3];
    assert Slice(sid, 2, 8) == [];
    assert Dec(0) == "0" && Dec(1) == "1";
    assert SubAuthorityTexts(sid, 3) == ["0", "0", "0"];
    assert Join("-", ["0", "0", "0"]) == "0-0-0";
    assert SidToStr(sid) == Some("S-" + "1" + "-" + "0" + "-" + "0-0-0");
    assert "S-" + "1" + "-" + "0" + "-" + "0-0-0" == "S-1-0-0-0-0";
  }

  /** Inputs shorter than two bytes raise inside the codec and come back as None. */
  lemma TooShortIsNone(sid: seq<byte>)
    requires |sid| < 2
    ensures SidToStr(sid) == None
  {
  }
}

=== FILE: strings.dfy ===
/**
 * The Python string operations the converter relies on: `in` (substring
 * search), `str.split`, `str.join`, `str.replace` and ASCII `str.upper`,
 * each with the laws that relate them.
 */
module Strings {
  import opened Wrappers

  /** `pat` occurs in `s` starting at index `i`. */
  predicate OccursAt(s: string, pat: string, i: nat) {
    i + |pat| <= |s| && s[i..i + |pat|] == pat
  }

  /** The first occurrence of `pat` in `s` at or after index `i`. */
  function FindFrom(s: string, pat: string, i: nat): (r: Option<nat>)
    ensures r.Some? ==> i <= r.value && OccursAt(s, pat, r.value)
    ensures r.Some? ==> forall j :: i <= j < r.value ==> !OccursAt(s, pat, j)
    ensures r.None? ==> forall j :: i <= j ==> !OccursAt(s, pat, j)
    decreases |s| - i
  {
    if i + |pat| > |s| then None
    else if s[i..i + |pat|] == pat then Some(i)
    else FindFrom(s, pat, i + 1)
  }

  /** The first occurrence of `pat` in `s` (Python `s.find(pat)`, with None for -1). */
  function Find(s: string, pat: string): (r: Option<nat>)
    ensures r.Some? ==> OccursAt(s, pat, r.value)
    ensures r.Some? ==> forall j: nat :: j < r.value ==> !OccursAt(s, pat, j)
    ensures r.None? ==> forall j: nat :: !OccursAt(s, pat, j)
  {
    FindFrom(s, pat, 0)
  }

  /** Python `pat in s`. */
  predicate Contains(s: string, pat: string) {
    Find(s, pat).Some?
  }

  /** Python `s.split(sep)`: the pieces between non-overlapping occurrences, left to right. */
  function Split(s: string, sep: string): (r: seq<string>)
    requires |sep| > 0
    ensures |r| >= 1
    ensures |r| >= 2 <==> Contains(s, sep)
    decreases |s|
  {
    match Find(s, sep)
    case None => [s]
    case Some(i) => [s[..i]] + Split(s[i + |sep|..], sep)
  }

  /** Python `sep.join(ps)`. */
  function Join(sep: string, ps: seq<string>): string
  {
    if |ps| == 0 then ""
    else if |ps| == 1 then ps[0]
    else ps[0] + sep + Join(sep, ps[1..])
  }

  /** Python `s.replace(pat, rep)`: every non-overlapping occurrence, left to right. */
  function Replace(s: string, pat: string, rep: string): string
    requires |pat| > 0
    decreases |s|
  {
    match Find(s, pat)
    case None => s
    case Some(i) => s[..i] + rep + Replace(s[i + |pat|..], pat, rep)
  }

  /** `s` with every character `a` turned into `b`. */
  function MapChar(s: string, a: char, b: char): (r: string)
    ensures |r| == |s|
    ensures forall i :: 0 <= i < |s| ==> r[i] == (if s[i] == a then b else s[i])
  {
    if |s| == 0 then "" else [if s[0] == a then b else s[0]] + MapChar(s[1..], a, b)
  }

  function UpperChar(c: char): char {
    if 'a' <= c <= 'z' then (c as int - 'a' as int + 'A' as int) as char else c
  }

  /** Python `s.upper()` restricted to ASCII letters. */
  function Upper(s: string): (r: string)
    ensures |r| == |s|
    ensures forall i :: 0 <= i < |s| ==> r[i] == UpperChar(s[i])
  {
    if |s| == 0 then "" else [UpperChar(s[0])] + Upper(s[1..])
  }

  /** A separator none of whose later characters repeats its first one, so
      two occurrences of it can never overlap. Every separator the converter
      splits on (",CN=", ",DC=", "=", "-", "@", ".") is one. */
  predicate FirstCharUnique(sep: string) {
    |sep| > 0 && forall k :: 0 < k < |sep| ==> sep[k] != sep[0]
  }

  /** The separators the converter splits on cannot overlap themselves. */
  lemma SeparatorsAreFirstCharUnique()
    ensures FirstCharUnique(",CN=") && FirstCharUnique(",DC=") && FirstCharUnique(",OU")
    ensures FirstCharUnique("=") && FirstCharUnique("-") && FirstCharUnique("@") && FirstCharUnique(".")
  {
  }

  // ---------------------------------------------------------------------------
  // Search lemmas

  /** A string that lacks one of the characters of `pat` does not contain `pat`. */
  lemma MissingCharNotContained(s: string, pat: string, k: nat)
    requires k < |pat| && pat[k] !in s
    ensures !Contains(s, pat)
  {
    forall i: nat | i + |pat| <= |s| ensures !OccursAt(s, pat, i) {
      assert s[i..i + |pat|][k] == s[i + k];
      assert s[i + k] in s;
    }
  }

  /** A one-character pattern occurs exactly when the character does. */
  lemma ContainsCharIff(s: string, c: char)
    ensures Contains(s, [c]) <==> c in s
  {
    if c in s {
      var i :| 0 <= i < |s| && s[i] == c;
      assert s[i..i + 1] == [c];
      assert OccursAt(s, [c], i);
    } else {
      MissingCharNotContained(s, [c], 0);
    }
  }

  /** The first occurrence in `a + sep + b` is the first one in `a`, or the
      displayed `sep` when `a` has none: with a first-character-unique
      separator no occurrence can straddle the end of `a`. */
  lemma FindInConcat(a: string, sep: string, b: string)
    requires FirstCharUnique(sep)
    ensures Find(a + sep + b, sep) == (if Contains(a, sep) then Find(a, sep) else Some(|a|))
  {
    var s := a + sep + b;
    assert s[|a|..|a| + |sep|] == sep;
    assert OccursAt(s, sep, |a|);
    forall j: nat | j < |a| && j + |sep| <= |a|
      ensures OccursAt(s, sep, j) <==> OccursAt(a, sep, j)
    {
      assert s[j..j + |sep|] == a[j..j + |sep|];
    }
    forall j: nat | j < |a| && j + |sep| > |a|
      ensures !OccursAt(s, sep, j)
    {
      var k := |a| - j;
      assert s[|a|] == sep[0] != sep[k];
      if j + |sep| <= |s| {
        assert s[j..j + |sep|][k] == s[|a|];
      }
    }
  }

  // ---------------------------------------------------------------------------
  // Split / Join laws

  /** Python's `sep.join(s.split(sep)) == s`. */
  lemma {:induction false} JoinSplit(s: string, sep: string)
    requires |sep| > 0
    ensures Join(sep, Split(s, sep)) == s
    decreases |s|
  {
    match Find(s, sep)
    case None =>
    case Some(i) =>
      var rest := s[i + |sep|..];
      var tail := Split(rest, sep);
      JoinSplit(rest, sep);
      assert Split(s, sep) == [s[..i]] + tail;
      assert ([s[..i]] + tail)[1..] == tail;
      assert Join(sep, [s[..i]] + tail) == s[..i] + sep + Join(sep, tail);
      assert s == s[..i] + sep + rest by {
        assert s[i..i + |sep|] == sep;
      }
  }

  /** Splitting `a + sep + b` splits `a` and `b` separately. */
  lemma {:induction false} SplitConcat(a: string, sep: string, b: string)
    requires FirstCharUnique(sep)
    ensures Split(a + sep + b, sep) == Split(a, sep) + Split(b, sep)
    decreases |a|
  {
    var s := a + sep + b;
    FindInConcat(a, sep, b);
    if Contains(a, sep) {
      var i := Find(a, sep).value;
      var a' := a[i + |sep|..];
      assert Find(s, sep) == Some(i);
      assert Split(s, sep) == [s[..i]] + Split(s[i + |sep|..], sep);
      assert Split(a, sep) == [a[..i]] + Split(a', sep);
      assert s[..i] == a[..i];
      assert s[i + |sep|..] == a' + sep + b;
      SplitConcat(a', sep, b);
    } else {
      assert Find(s, sep) == Some(|a|);
      assert Split(s, sep) == [s[..|a|]] + Split(s[|a| + |sep|..], sep);
      assert s[..|a|] == a;
      assert s[|a| + |sep|..] == b;
    }
  }

  /** Joining pieces that do not contain the separator and splitting again gives the pieces back. */
  lemma {:induction false} SplitJoin(ps: seq<string>, sep: string)
    requires FirstCharUnique(sep)
    requires |ps| >= 1
    requires forall i :: 0 <= i < |ps| ==> !Contains(ps[i], sep)
    ensures Split(Join(sep, ps), sep) == ps
  {
    if |ps| == 1 {
    } else {
      SplitJoin(ps[1..], sep);
      SplitConcat(ps[0], sep, Join(sep, ps[1..]));
      assert ps == [ps[0]] + ps[1..];
    }
  }

  /** When no occurrence of the separator starts before index `m`, the first
      piece of the split keeps the first `m` characters. */
  lemma SplitHeadKeepsPrefix(s: string, sep: string, m: nat)
    requires |sep| > 0 && m <= |s|
    requires forall j: nat :: j < m ==> !OccursAt(s, sep, j)
    ensures |Split(s, sep)[0]| >= m && Split(s, sep)[0][..m] == s[..m]
  {
    match Find(s, sep)
    case None =>
    case Some(i) =>
      assert Split(s, sep)[0] == s[..i];
  }

  /** A string that does not contain the separator splits into itself. */
  lemma SplitWithout(s: string, sep: string)
    requires |sep| > 0 && !Contains(s, sep)
    ensures Split(s, sep) == [s]
  {
  }

  /** Joining is associative over a split of the list. */
  lemma {:induction false} JoinAppend(sep: string, ps: seq<string>, qs: seq<string>)
    requires |ps| >= 1 && |qs| >= 1
    ensures Join(sep, ps + qs) == Join(sep, ps) + sep + Join(sep, qs)
  {
    if |ps| == 1 {
      assert (ps + qs)[1..] == qs;
    } else {
      JoinAppend(sep, ps[1..], qs);
      assert (ps + qs)[1..] == ps[1..] + qs;
    }
  }

  /** A join of pieces free of a character `c` that also differs from every
      character of the separator is free of `c`. */
  lemma {:induction false} JoinAvoidsChar(sep: string, ps: seq<string>, c: char)
    requires c !in sep
    requires forall i :: 0 <= i < |ps| ==> c !in ps[i]
    ensures c !in Join(sep, ps)
  {
    if |ps| > 1 {
      JoinAvoidsChar(sep, ps[1..], c);
    }
  }

  // ---------------------------------------------------------------------------
  // Replace laws

  /** Python's `s.replace(pat, rep) == rep.join(s.split(pat))`. */
  lemma {:induction false} ReplaceIsJoinSplit(s: string, pat: string, rep: string)
    requires |pat| > 0
    ensures Replace(s, pat, rep) == Join(rep, Split(s, pat))
    decreases |s|
  {
    match Find(s, pat)
    case None =>
    case Some(i) =>
      ReplaceIsJoinSplit(s[i + |pat|..], pat, rep);
  }

  /** Replacing a single character by a single character maps it pointwise. */
  lemma {:induction false} ReplaceOneChar(s: string, a: char, b: char)
    ensures Replace(s, [a], [b]) == MapChar(s, a, b)
    decreases |s|
  {
    match Find(s, [a])
    case None =>
      ContainsCharIff(s, a);
    case Some(i) =>
      var rest := s[i + 1..];
      ReplaceOneChar(rest, a, b);
      FirstCharOccurrence(s, a, i);
      MapCharAtFirst(s, a, b, i);
  }

  /** The first occurrence of the one-character pattern `[a]` is the first `a`. */
  lemma FirstCharOccurrence(s: string, a: char, i: nat)
    requires Find(s, [a]) == Some(i)
    ensures i < |s| && s[i] == a
    ensures forall j :: 0 <= j < i ==> s[j] != a
  {
    assert s[i..i + 1] == [a];
    forall j | 0 <= j < i ensures s[j] != a {
      assert !OccursAt(s, [a], j);
      assert s[j..j + 1] == [s[j]];
    }
  }

  /** Mapping `a` to `b` splits at the first `a`. */
  lemma MapCharAtFirst(s: string, a: char, b: char, i: nat)
    requires i < |s| && s[i] == a
    requires forall j :: 0 <= j < i ==> s[j] != a
    ensures MapChar(s, a, b) == s[..i] + [b] + MapChar(s[i + 1..], a, b)
  {
    var r := s[..i] + [b] + MapChar(s[i + 1..], a, b);
    assert |r| == |s|;
    forall j | 0 <= j < |s| ensures r[j] == MapChar(s, a, b)[j] {
      if j > i {
        assert r[j] == MapChar(s[i + 1..], a, b)[j - i - 1];
      }
    }
  }

  // ---------------------------------------------------------------------------
  // Upper laws

  lemma UpperConcat(a: string, b: string)
    ensures Upper(a + b) == Upper(a) + Upper(b)
  {
    assert Upper(a + b) == Upper(a) + Upper(b) by {
      var r := Upper(a + b);
      forall i | 0 <= i < |a| + |b| ensures r[i] == (Upper(a) + Upper(b))[i] {
        if i < |a| { assert (a + b)[i] == a[i]; } else { assert (a + b)[i] == b[i - |a|]; }
      }
    }
  }

  lemma UpperConcat3(a: string, b: string, c: string)
    ensures Upper(a + b + c) == Upper(a) + Upper(b) + Upper(c)
  {
    UpperConcat(a + b, c);
    UpperConcat(a, b);
  }

  lemma UpperIdempotent(s: string)
    ensures Upper(Upper(s)) == Upper(s)
  {
  }

  /** Characters that are not lower-case ASCII letters survive upper-casing,
      and no new ones of them appear. */
  lemma UpperKeepsChar(s: string, c: char)
    requires !('a' <= c <= 'z') && !('A' <= c <= 'Z')
    ensures c in Upper(s) <==> c in s
  {
    if c in s {
      var i :| 0 <= i < |s| && s[i] == c;
      assert Upper(s)[i] == c;
    }
    if c in Upper(s) {
      var i :| 0 <= i < |s| && Upper(s)[i] == c;
      assert s[i] == c;
    }
  }
}

=== FILE: users.dfy ===
/**
 * The users pass: one BloodHound user node per ldapdomaindump user record,
 * with the reference-table writes the pass makes along the way.
 */
module Users {
  import opened Wrappers
  import opened Strings
  import opened Records
  import opened Naming
  import opened AccountControl
  import opened RefTable

  /** The properties of a user node that depend on the record. The source
      also writes constant properties (`sensitive` false; `email`, `title`,
      `homedirectory`, `userpassword` None; empty lists), left out here. */
  datatype UserNode = UserNode(
    objectIdentifier: Value,
    primaryGroupSid: string,
    name: string,
    domain: string,
    objectId: Value,
    distinguishedName: string,
    highValue: bool,
    unconstrainedDelegation: bool,
    passwordNotReqd: bool,
    enabled: bool,
    lastLogon: int,
    lastLogonTimestamp: int,
    pwdLastSet: int,
    dontReqPreauth: bool,
    pwdNeverExpires: bool,
    hasSpn: Option<Value>,       // the first servicePrincipalName; None stands for False
    displayName: string,
    description: Option<string>,
    adminCount: bool)

  /** The `name` property: the upper-cased userPrincipalName, or the name read off the DN. */
  function UserName(a: Attrs): Result<string, Error>
  {
    if "userPrincipalName" in a then
      var upn :- First(a, "userPrincipalName");
      Success(Upper(Str(upn)))
    else
      var dn :- First(a, "distinguishedName");
      UserNameFromDn(Str(dn))
  }

  /** The `domain` property: the text after the first `@`. */
  function UserDomain(a: Attrs, name: string): Result<string, Error>
  {
    if "userPrincipalName" in a then
      var upn :- First(a, "userPrincipalName");
      PieceAfter(Str(upn), "@")
    else
      PieceAfter(name, "@")
  }

  /** The account-control booleans of a user node. */
  datatype AccountFlags = AccountFlags(
    unconstrainedDelegation: bool,
    passwordNotReqd: bool,
    enabled: bool,
    dontReqPreauth: bool,
    pwdNeverExpires: bool)

  /** The five `check(userAccountControl, ...)` tests of the users loop; each
      reads exactly one bit, and `enabled` is the negation of ACCOUNTDISABLE. */
  function FlagsOf(uac: int): (f: AccountFlags)
    ensures f.enabled <==> !Bit(uac, 1)
    ensures f.unconstrainedDelegation <==> Bit(uac, 19)
    ensures f.passwordNotReqd <==> Bit(uac, 5)
    ensures f.dontReqPreauth <==> Bit(uac, 22)
    ensures f.pwdNeverExpires <==> Bit(uac, 16)
  {
    assert IsSet(uac, AccountDisable) <==> Bit(uac, 1) by { IsSetIffBit(uac, AccountDisable); }
    assert IsSet(uac, TrustedForDelegation) <==> Bit(uac, 19) by { IsSetIffBit(uac, TrustedForDelegation); }
    assert IsSet(uac, PasswdNotReqd) <==> Bit(uac, 5) by { IsSetIffBit(uac, PasswdNotReqd); }
    assert IsSet(uac, DontReqPreauth) <==> Bit(uac, 22) by { IsSetIffBit(uac, DontReqPreauth); }
    assert IsSet(uac, DontExpirePassword) <==> Bit(uac, 16) by { IsSetIffBit(uac, DontExpirePassword); }
    AccountFlags(
      unconstrainedDelegation := IsSet(uac, TrustedForDelegation),
      passwordNotReqd := IsSet(uac, PasswdNotReqd),
      enabled := !IsSet(uac, AccountDisable),
      dontReqPreauth := IsSet(uac, DontReqPreauth),
      pwdNeverExpires := IsSet(uac, DontExpirePassword))
  }

  /** The identity part of a user node, computed first in the loop body. */
  datatype Identity = Identity(
    objectSid: Value,
    primaryGroupSid: string,
    name: string,
    domain: string,
    distinguishedName: string,
    highValue: bool)

  /** The loop body up to the distinguished name, in source order. */
  function DeriveIdentity(a: Attrs): (r: Result<Identity, Error>)
    ensures "objectSid" !in a ==> r == Failure(KeyError("objectSid"))
    ensures r.Success? ==>
      && "objectSid" in a && |a["objectSid"]| > 0 && a["objectSid"][0].Text?
      && "distinguishedName" in a && |a["distinguishedName"]| > 0 && a["distinguishedName"][0].Text?
      && "primaryGroupID" in a && |a["primaryGroupID"]| > 0
      && r.value.objectSid == a["objectSid"][0]
      && r.value.primaryGroupSid == PrimaryGroupSid(a["objectSid"][0].s, a["primaryGroupID"][0])
      && r.value.distinguishedName == Sanitize(a["distinguishedName"][0].s)
      && r.value.highValue == HighValueByPrimaryGroup(a["primaryGroupID"][0])
      && UserName(a) == Success(r.value.name)
      && UserDomain(a, r.value.name) == Success(r.value.domain)
  {
    var objectSid :- First(a, "objectSid");
    var sidText :- FirstText(a, "objectSid");
    var pgid :- First(a, "primaryGroupID");
    var name :- UserName(a);
    var domain :- UserDomain(a, name);
    var dn :- FirstText(a, "distinguishedName");
    Success(Identity(objectSid, PrimaryGroupSid(sidText, pgid), name, domain, Sanitize(dn),
                     HighValueByPrimaryGroup(pgid)))
  }

  /** The account part of a user node, computed after the table write. */
  datatype Details = Details(
    flags: AccountFlags,
    lastLogon: int,
    lastLogonTimestamp: int,
    pwdLastSet: int,
    hasSpn: Option<Value>,
    displayName: string,
    description: Option<string>,
    adminCount: bool)

  /** The loop body from userAccountControl on, in source order. */
  function DeriveDetails(a: Attrs, lib: Library): (r: Result<Details, Error>)
    ensures "userAccountControl" !in a ==> r == Failure(KeyError("userAccountControl"))
    ensures r.Success? ==>
      && "userAccountControl" in a && |a["userAccountControl"]| > 0 && a["userAccountControl"][0].Number?
      && r.value.flags == FlagsOf(a["userAccountControl"][0].n)
      && (r.value.adminCount <==> "adminCount" in a)
      && ("lastLogon" !in a ==> r.value.lastLogon == -1)
      && ("lastLogonTimestamp" !in a ==> r.value.lastLogonTimestamp == -1)
      && ("pwdLastSet" !in a ==> r.value.pwdLastSet == -1)
      && ("description" !in a ==> r.value.description == None)
      && ("servicePrincipalName" !in a ==> r.value.hasSpn == None)
      && ("servicePrincipalName" in a ==>
            |a["servicePrincipalName"]| > 0 && r.value.hasSpn == Some(a["servicePrincipalName"][0]))
      && (var key := if "displayName" in a then "displayName" else "sAMAccountName";
          key in a && |a[key]| > 0 && a[key][0].Text? && r.value.displayName == Sanitize(a[key][0].s))
      && Timestamp(a, "lastLogon", lib) == Success(r.value.lastLogon)
      && Timestamp(a, "lastLogonTimestamp", lib) == Success(r.value.lastLogonTimestamp)
      && Timestamp(a, "pwdLastSet", lib) == Success(r.value.pwdLastSet)
      && OptionalText(a, "description") == Success(r.value.description)
  {
    var uac :- FirstNumber(a, "userAccountControl");
    var lastLogon :- Timestamp(a, "lastLogon", lib);
    var lastLogonTimestamp :- Timestamp(a, "lastLogonTimestamp", lib);
    var pwdLastSet :- Timestamp(a, "pwdLastSet", lib);
    var hasSpn :- if "servicePrincipalName" in a then
                    var spn :- First(a, "servicePrincipalName"); Success(Some(spn))
                  else Success(None);
    var displayName :- if "displayName" in a then FirstText(a, "displayName")
                       else FirstText(a, "sAMAccountName");
    var description :- OptionalText(a, "description");
    Success(Details(FlagsOf(uac), lastLogon, lastLogonTimestamp, pwdLastSet, hasSpn,
                    Sanitize(displayName), description, "adminCount" in a))
  }

  /** The per-record body of the users loop: the first exception raised is
      the error returned. */
  function DeriveUser(a: Attrs, lib: Library): (r: Result<UserNode, Error>)
    ensures r.Success? <==> DeriveIdentity(a).Success? && DeriveDetails(a, lib).Success?
  {
    var id :- DeriveIdentity(a);
    var d :- DeriveDetails(a, lib);
    Success(UserNode(
      objectIdentifier := id.objectSid,
      primaryGroupSid := id.primaryGroupSid,
      name := id.name,
      domain := id.domain,
      objectId := id.objectSid,
      distinguishedName := id.distinguishedName,
      highValue := id.highValue,
      unconstrainedDelegation := d.flags.unconstrainedDelegation,
      passwordNotReqd := d.flags.passwordNotReqd,
      enabled := d.flags.enabled,
      lastLogon := d.lastLogon,
      lastLogonTimestamp := d.lastLogonTimestamp,
      pwdLastSet := d.pwdLastSet,
      dontReqPreauth := d.flags.dontReqPreauth,
      pwdNeverExpires := d.flags.pwdNeverExpires,
      hasSpn := d.hasSpn,
      displayName := d.displayName,
      description := d.description,
      adminCount := d.adminCount))
  }

  /** The properties of a derived user node, read off the record: the
      account-control booleans are the bits of userAccountControl, the
      timestamps default to -1, `admincount` is the presence of adminCount. */
  lemma DerivedUserProperties(a: Attrs, lib: Library)
    requires DeriveUser(a, lib).Success?
    ensures "objectSid" in a && |a["objectSid"]| > 0 && a["objectSid"][0].Text?
    ensures "primaryGroupID" in a && |a["primaryGroupID"]| > 0
    ensures "userAccountControl" in a && |a["userAccountControl"]| > 0 && a["userAccountControl"][0].Number?
    ensures
      var u := DeriveUser(a, lib).value;
      var uac := a["userAccountControl"][0].n;
      && u.objectIdentifier == a["objectSid"][0] && u.objectId == a["objectSid"][0]
      && u.primaryGroupSid == PrimaryGroupSid(a["objectSid"][0].s, a["primaryGroupID"][0])
      && (u.highValue <==> HighValueByPrimaryGroup(a["primaryGroupID"][0]))
      && (u.enabled <==> !Bit(uac, 1))
      && (u.unconstrainedDelegation <==> Bit(uac, 19))
      && (u.passwordNotReqd <==> Bit(uac, 5))
      && (u.dontReqPreauth <==> Bit(uac, 22))
      && (u.pwdNeverExpires <==> Bit(uac, 16))
      && (u.adminCount <==> "adminCount" in a)
      && ("lastLogon" !in a ==> u.lastLogon == -1)
      && ("lastLogonTimestamp" !in a ==> u.lastLogonTimestamp == -1)
      && ("pwdLastSet" !in a ==> u.pwdLastSet == -1)
      && ("description" !in a ==> u.description == None)
      && ("servicePrincipalName" !in a ==> u.hasSpn == None)
  {
  }

  /** The text and timestamp properties of a derived user node: the name and
      domain the naming rules give, the sanitized DN, the sanitized
      displayName (or sAMAccountName), `to_epoch` of each present timestamp,
      the sanitized description and the first servicePrincipalName. */
  lemma DerivedUserTexts(a: Attrs, lib: Library)
    requires DeriveUser(a, lib).Success?
    ensures
      var u := DeriveUser(a, lib).value;
      && UserName(a) == Success(u.name) && UserDomain(a, u.name) == Success(u.domain)
      && "distinguishedName" in a && |a["distinguishedName"]| > 0 && a["distinguishedName"][0].Text?
      && u.distinguishedName == Sanitize(a["distinguishedName"][0].s)
      && (var key := if "displayName" in a then "displayName" else "sAMAccountName";
          key in a && |a[key]| > 0 && a[key][0].Text? && u.displayName == Sanitize(a[key][0].s))
    ensures
      var u := DeriveUser(a, lib).value;
      && ("lastLogon" in a ==>
            |a["lastLogon"]| > 0 && a["lastLogon"][0].Text? && u.lastLogon == lib.toEpoch(a["lastLogon"][0].s))
      && ("lastLogonTimestamp" in a ==>
            |a["lastLogonTimestamp"]| > 0 && a["lastLogonTimestamp"][0].Text?
            && u.lastLogonTimestamp == lib.toEpoch(a["lastLogonTimestamp"][0].s))
      && ("pwdLastSet" in a ==>
            |a["pwdLastSet"]| > 0 && a["pwdLastSet"][0].Text? && u.pwdLastSet == lib.toEpoch(a["pwdLastSet"][0].s))
      && ("description" in a ==>
            |a["description"]| > 0 && a["description"][0].Text?
            && u.description == Some(Sanitize(a["description"][0].s)))
      && ("servicePrincipalName" in a ==>
            |a["servicePrincipalName"]| > 0 && u.hasSpn == Some(a["servicePrincipalName"][0]))
  {
    assert DeriveIdentity(a).Success? && DeriveDetails(a, lib).Success?;
  }

  /** The reference-table write the users loop makes for a node. */
  function TableWrite(u: UserNode): Entry
  {
    (u.distinguishedName, (u.objectIdentifier, UserKind(u.distinguishedName)))
  }

  /** `parse_users`: every record derived in order, the envelope counting
      them, and the table holding the writes the loop made. */
  function ParseUsers(users: seq<Attrs>, lib: Library, t: Table): (r: Result<(Collection<UserNode>, Table), Error>)
    ensures r.Success? ==>
      && r.value.0.count == |users| && |r.value.0.items| == |users|
      && r.value.0.version == SchemaVersion && r.value.0.kind == "users"
      && (forall i :: 0 <= i < |users| ==> DeriveUser(users[i], lib) == Success(r.value.0.items[i]))
    ensures r.Success? <==> forall i :: 0 <= i < |users| ==> DeriveUser(users[i], lib).Success?
  {
    var nodes :- MapAll(users, a => DeriveUser(a, lib));
    var writes := seq(|nodes|, i requires 0 <= i < |nodes| => TableWrite(nodes[i]));
    Success((Envelope("users", nodes), Register(writes, t)))
  }

  // ---------------------------------------------------------------------------
  // Lemmas

  /** A record that derives writes the same entry the stand-in pre-pass of
      the groups pass would write for it. */
  lemma DerivedUserEntry(a: Attrs, lib: Library)
    requires DeriveUser(a, lib).Success?
    ensures UserEntry(a) == Success(TableWrite(DeriveUser(a, lib).value))
  {
    assert DeriveIdentity(a).Success?;
  }

  /** When the users pass has run, the table it leaves is exactly the one the
      groups pass's own users pre-pass would build, so groups come out the
      same whichever of the two filled the table. */
  lemma UsersPassTableIsPrePassTable(users: seq<Attrs>, lib: Library, t: Table)
    requires ParseUsers(users, lib, t).Success?
    ensures RegisterUsers(users, t) == Success(ParseUsers(users, lib, t).value.1)
  {
    UserEntriesAreWrites(users, lib, t);
  }

  /** The users pre-pass computes exactly the writes of the users loop. */
  lemma UserEntriesAreWrites(users: seq<Attrs>, lib: Library, t: Table)
    requires ParseUsers(users, lib, t).Success?
    ensures MapAll(users, UserEntry) == Success(UsersPassWrites(users, lib, t))
  {
    var writes := UsersPassWrites(users, lib, t);
    forall i | 0 <= i < |users| ensures UserEntry(users[i]) == Success(writes[i]) {
      DerivedUserEntry(users[i], lib);
    }
    MapAllPointwise(users, UserEntry, writes);
  }

  /** The writes the users loop makes, one per node in order, and the table
      they leave. */
  function UsersPassWrites(users: seq<Attrs>, lib: Library, t: Table): (ws: seq<Entry>)
    requires ParseUsers(users, lib, t).Success?
    ensures |ws| == |users|
    ensures forall i :: 0 <= i < |users| ==> ws[i] == TableWrite(ParseUsers(users, lib, t).value.0.items[i])
    ensures ParseUsers(users, lib, t).value.1 == Register(ws, t)
  {
    var nodes := ParseUsers(users, lib, t).value.0.items;
    seq(|nodes|, i requires 0 <= i < |nodes| => TableWrite(nodes[i]))
  }

  /** Without a userPrincipalName, a user DN `CN=x,CN=...,DC=d1,...,DC=dk`
      gives the name upper(x)@upper(d1.....dk) and the domain upper(d1.....dk). */
  lemma CanonicalUserNaming(a: Attrs, x: string, mid: string, ds: seq<string>)
    requires "userPrincipalName" !in a
    requires "distinguishedName" in a && |a["distinguishedName"]| > 0
    requires a["distinguishedName"][0] == Text(Join(",DC=", ["CN=" + x + ",CN=" + mid] + ds))
    requires '=' !in x && '@' !in x
    requires |ds| >= 1
    requires !Contains("CN=" + x + ",CN=" + mid, ",DC=")
    requires forall i :: 0 <= i < |ds| ==> !Contains(ds[i], ",DC=") && '@' !in ds[i]
    ensures UserName(a) == Success(Upper(x) + "@" + Upper(Join(".", ds)))
    ensures UserDomain(a, Upper(x) + "@" + Upper(Join(".", ds))) == Success(Upper(Join(".", ds)))
  {
    CanonicalUserName(x, mid, ds);
  }

  /** With a userPrincipalName the name is that principal name upper-cased. */
  lemma PrincipalNameWins(a: Attrs, upn: string)
    requires "userPrincipalName" in a && |a["userPrincipalName"]| > 0
    requires a["userPrincipalName"][0] == Text(upn)
    ensures UserName(a) == Success(Upper(upn))
  {
  }

  /** Without a userPrincipalName, a user DN under an OU,
      `CN=x,OU=y,DC=d1,...,DC=dk`, keeps `,OU` in the name:
      upper(x),OU@upper(d1.....dk), with domain upper(d1.....dk). */
  lemma OuUserNaming(a: Attrs, x: string, y: string, ds: seq<string>)
    requires "userPrincipalName" !in a
    requires "distinguishedName" in a && |a["distinguishedName"]| > 0
    requires a["distinguishedName"][0] == Text(Join(",DC=", ["CN=" + x + ",OU=" + y] + ds))
    requires '=' !in x && '@' !in x
    requires |ds| >= 1
    requires !Contains("CN=" + x + ",OU=" + y, ",DC=")
    requires forall i :: 0 <= i < |ds| ==> !Contains(ds[i], ",DC=") && '@' !in ds[i]
    ensures UserName(a) == Success(Upper(x) + ",OU" + "@" + Upper(Join(".", ds)))
    ensures UserDomain(a, Upper(x) + ",OU" + "@" + Upper(Join(".", ds))) == Success(Upper(Join(".", ds)))
  {
    UserNameKeepsOu(x, y, ds);
    UpperKeepsOu(x);
    JoinAvoidsChar(".", ds, '@');
    AtSplitsName(x + ",OU", Join(".", ds));
  }
}

=== FILE: wrappers.dfy ===
/** Failure-compatible Option and Result types, usable with `:-`. */
module Wrappers {

  /** An optional value; stands for Python's `None` or a present value. */
  datatype Option<+T> = None | Some(value: T) {

    predicate IsFailure() {
      None?
    }

    function PropagateFailure<U>(): Option<U>
      requires None?
    {
      None
    }

    function Extract(): T
      requires Some?
    {
      value
    }
  }

  /** The outcome of a computation that may raise. */
  datatype Result<+T, +E> = Success(value: T) | Failure(error: E) {

    predicate IsFailure() {
      Failure?
    }

    function PropagateFailure<U>(): Result<U, E>
      requires Failure?
    {
      Failure(error)
    }

    function Extract(): T
      requires Success?
    {
      value
    }
  }
}
